=== FILE: README.md ===
# Orbital debris dashboard — simulation core in Dafny

The dashboard is a React application for watching satellites and orbital
debris. Almost all of it is presentation. What it computes lives in a few
state-update rules written inline in its components and hooks:

- the telemetry simulator, which seeds a 21-sample history and random-walks
  six channels every 3 seconds;
- the realtime metrics hook, which random-walks CPU, memory and latency
  inside bands, drifts the debris count, re-rolls the threat level and feeds
  a ten-entry alert list;
- the maneuver planner's three slider updates and its success colour/badge;
- the debris analysis panel's 2-second tick, its confidence-to-threat badge
  and its orbital-decay progress bar;
- the 3D orbital view's per-frame angle advance, auto-rotate camera angle,
  mouse-down switch to manual mode and wheel-zoom limit;
- the 2D canvas view's coordination-link rule, debris disc sizes and
  decorations.

Each rule is modelled as a pure function over immutable datatypes. Every
`Math.random()` call becomes a parameter `r` with `0 <= r < 1`
(`Common.IsDraw`), in the order the source draws them. Timers, the clock and
rendering are outside the model. A clock reading is an `int` of milliseconds
passed in.

Modules:

- `Common` (`common.dfy`) holds what several files share: `Option`, the
  clamp `Math.max(lo, Math.min(hi, x))`, the centred step
  `(Math.random() - 0.5) * span`, the pool pick `Math.floor(Math.random() * n)`,
  the three-valued level, satellite statuses and badges.
- Every other module models one source file:
  - `SatelliteTelemetry` models `src/components/SatelliteTelemetry.tsx`;
  - `RealtimeData` models `src/hooks/useRealtimeData.ts`;
  - `ManeuverPlanning` models `src/components/ManeuverPlanning.tsx`;
  - `DebrisAnalysis` models `src/components/DebrisAnalysisPanel.tsx`;
  - `OrbitalView3D` models `src/components/OrbitalView3D.tsx`;
  - `OrbitalView` models `src/components/OrbitalView.tsx`.

In four places the code departs from the behaviour the dashboard is meant
to have. The model follows the code:

- **Angles are never wrapped.** A body's angle is meant to be reduced
  modulo 2π. The code only adds the speed each frame.
  `OrbitalView3D.AnglesAreNotWrapped` shows NS-001 passing 2π.
- **The charted sample is not clamped.** Each new telemetry sample is meant
  to be clamped. The code clamps only the live readout and charts the
  unclamped sample. `SatelliteTelemetry.SeriesPointMayLeaveRange` shows a
  charted battery above 100.
- **The thrust slider uses its own formula.** The planner is meant to have one
  estimator: delta-v = thrust · duration · 0.025 and fuel = thrust · duration · 0.0007.
  In the code only the duration slider uses it (`ManeuverPlanning.Estimate`). The thrust slider sets
  delta-v = 200 · thrust and fuel = 5 · thrust. Each slider is modelled as
  written. `ManeuverPlanning.ThrustPathLeavesEstimate` shows the two paths
  never agree inside the sliders' ranges.
- **The burn-angle range includes 360.** The intended range is [0, 360); the slider's maximum is 360, so `ManeuverPlanning.AngleInRange` admits 360.

## Model

| member | source | states |
|---|---|---|
| Common.Clamp | src/hooks/useRealtimeData.ts:55-57 | the clamped value lies in [lo, hi], an in-range value is returned unchanged, and a value below or above the band gives lo or hi |
| Common.Centered | src/components/SatelliteTelemetry.tsx:54-59 | a centred draw `(r - 0.5) * span` lies in [-span/2, span/2), so every random-walk step is bounded by half its span |
| Common.PickIndex | src/hooks/useRealtimeData.ts:76-78 | `floor(r * n)` is a valid index into a pool of n entries, and it is the index whose slot of the unit interval holds r |
| SatelliteTelemetry.SeedVitals | src/components/SatelliteTelemetry.tsx:38-43 | each seeded channel falls in its half-open band: battery [85,90), temperature [20,25), velocity [7.7,7.9), altitude [418,422), thrust [0.1,0.15), signal [90,100) |
| SatelliteTelemetry.EverySeedReachable | src/components/SatelliteTelemetry.tsx:38-43 | conversely, every sample inside the seed bands is produced by some draws, each channel by its own |
| SatelliteTelemetry.SeedSeries | src/components/SatelliteTelemetry.tsx:32-45 | the seeded history has exactly 21 samples, the last stamped now, each 3000 ms after the previous one, every sample within the seed bands |
| SatelliteTelemetry.SeedLoop | src/components/SatelliteTelemetry.tsx:34-45 | the loop counting i from 20 down to 0 and pushing the sample stamped now - i·3000 builds exactly the reference history |
| SatelliteTelemetry.RawStep | src/components/SatelliteTelemetry.tsx:52-60 | each channel of the new sample moves from the live readout by at most battery ±0.25, temperature ±0.5, velocity ±0.025, altitude ±0.25, thrust ±0.01, signal ±1 |
| SatelliteTelemetry.EveryStepReachable | src/components/SatelliteTelemetry.tsx:52-60 | conversely, every combination of per-channel steps within those half-spans is taken by some draws, so the six channels walk independently |
| SatelliteTelemetry.ClampLive | src/components/SatelliteTelemetry.tsx:62-69 | each channel is limited on its own: battery and signal below 0 become 0, above 100 become 100, and are kept inside [0, 100]; velocity, altitude and thrust below 0 become 0 and are kept otherwise; temperature is passed through; so the readout is always in range |
| SatelliteTelemetry.Tick | src/components/SatelliteTelemetry.tsx:50-69 | the tick stamps its sample with the clock; the charted sample is the raw random-walk step from the live readout and the new readout is that sample clamped, so the readout is in range, keeps the sample's temperature, and equals the sample whenever the sample is already in range |
| SatelliteTelemetry.Append | src/components/SatelliteTelemetry.tsx:71 | with #prev the length of the previous series, after an append the series holds min(#prev, 20) + 1 ≤ 21 samples, the new sample is last, and before it come the last min(#prev, 20) samples of prev in order |
| SatelliteTelemetry.SliceFrom | src/components/SatelliteTelemetry.tsx:71 | `slice(start)` returns a suffix: for a negative start the last -start elements, or the whole list when it is shorter; for a start in range everything from it; past the end nothing |
| SatelliteTelemetry.AppendToFull | src/components/SatelliteTelemetry.tsx:71 | appending to a full 21-sample window drops exactly the oldest sample |
| SatelliteTelemetry.Initial | src/components/SatelliteTelemetry.tsx:19-47 | the panel mounts on NS-001 with a full 21-sample history |
| SatelliteTelemetry.Select | src/components/SatelliteTelemetry.tsx:30-47 | choosing another satellite replaces the series with a fresh seed instead of extending it; choosing the shown one changes nothing; the live readout is untouched |
| SatelliteTelemetry.Step | src/components/SatelliteTelemetry.tsx:49-72 | an interval firing keeps the selection, appends the tick's unclamped sample to the window (so the last 20 earlier samples precede it and the window holds at most 21), and sets the live readout to the tick's clamped sample, which is in range |
| SatelliteTelemetry.RunKeepsWf | src/components/SatelliteTelemetry.tsx:30-75 | under any sequence of ticks and selections the window never exceeds 21 samples and the live readout never leaves its ranges |
| SatelliteTelemetry.InitialWf | src/components/SatelliteTelemetry.tsx:19-47 | the mounted panel satisfies the window and range invariant |
| SatelliteTelemetry.SeriesPointMayLeaveRange | src/components/SatelliteTelemetry.tsx:52-71 | the charted sample is not clamped: from battery 100 a high draw charts more than 100 while the readout shows 100 |
| RealtimeData.DebrisDrift | src/hooks/useRealtimeData.ts:54 | `floor(3r - 1)` is -1, 0 or +1, with -1 exactly on the lowest third of draws and +1 exactly on the highest third |
| RealtimeData.ClassifyThreat | src/hooks/useRealtimeData.ts:58 | the level is high iff the first draw exceeds 0.95, medium iff it does not and the second exceeds 0.8, low otherwise |
| RealtimeData.MetricsTick | src/hooks/useRealtimeData.ts:52-59 | CPU ends in [20,95], memory in [30,90], latency in [10,100]; the debris count moves by the drift of its draw, -1, 0 or +1; the threat level is the classification of the two threat draws; satellite count and system status are unchanged; from in-band values each metric moves at most half its span |
| RealtimeData.EveryMetricsStepReachable | src/hooks/useRealtimeData.ts:55-57 | conversely, every CPU, memory and latency step within half its span is taken by some draws and lands where it points whenever that is inside the band |
| RealtimeData.InitialAlerts | src/hooks/useRealtimeData.ts:32-47 | the feed starts with two alerts, within its capacity |
| RealtimeData.NewAlert | src/hooks/useRealtimeData.ts:74-80 | a generated alert's kind, severity and message each come from their own draw: entry k of a pool of n is chosen exactly when the draw lies in [k/n, (k+1)/n); it carries the given id and clock reading |
| RealtimeData.EveryAlertReachable | src/hooks/useRealtimeData.ts:74-80 | every combination of kind, severity and message can be generated: the draws k/4, j/3 and m/6 pick entries k, j and m |
| RealtimeData.Take | src/hooks/useRealtimeData.ts:82 | `slice(0, n)` returns a prefix: the whole list when it has at most n elements, else its first n |
| RealtimeData.Push | src/hooks/useRealtimeData.ts:82 | prepend-and-truncate puts the new alert at the head, leaves min(#prev + 1, 10) alerts, and keeps prev's prefix in order behind it |
| RealtimeData.AlertTick | src/hooks/useRealtimeData.ts:62-83 | with a gate draw of at most 0.7 the feed is unchanged; above it the feed gains, at the head, the alert generated from the same draws, length min(#prev + 1, 10), prev's prefix after it; a feed within capacity stays within it |
| RealtimeData.Initial | src/hooks/useRealtimeData.ts:22-47 | the hook starts with in-band metrics and a feed within capacity |
| RealtimeData.Step | src/hooks/useRealtimeData.ts:50-84 | an interval firing runs both updates: the metrics become the metrics tick of the firing's draws and the feed the alert tick of its gate and picks; so the metrics are in band and a feed within capacity stays within it |
| RealtimeData.RunKeepsWf | src/hooks/useRealtimeData.ts:49-87 | under any number of firings the metrics stay in band, the feed never exceeds ten alerts, and satellite count and system status never change |
| RealtimeData.DebrisWithinRun | src/hooks/useRealtimeData.ts:54 | after n firings the debris count is within n of where it started |
| ManeuverPlanning.UpdateThrust | src/components/ManeuverPlanning.tsx:38-47 | the thrust slider sets thrust, delta-v to 200·thrust, fuel to 5·thrust and success to min(0.99, 0.7 + 10·thrust), which is the cap exactly when thrust ≥ 0.029, and leaves duration, burn angle, target and time-to-contact alone |
| ManeuverPlanning.Estimate | src/components/ManeuverPlanning.tsx:54-55 | the reference estimator: delta-v and fuel are 0.025 and 0.0007 per unit of thrust·duration, so they stand in that ratio, are zero when thrust or duration is zero and positive when both are |
| ManeuverPlanning.UpdateDuration | src/components/ManeuverPlanning.tsx:49-57 | the duration slider sets duration and shows exactly the reference estimate for the plan's thrust and the new duration, leaving thrust, success, burn angle, target and time-to-contact alone |
| ManeuverPlanning.ThrustPathLeavesEstimate | src/components/ManeuverPlanning.tsx:38-57 | for any plan and thrust, the thrust slider's delta-v equals the reference estimate iff thrust is 0 or duration is 8000 s, and its fuel iff thrust is 0 or duration is 50000/7 s; so with both sliders in range neither figure ever agrees |
| ManeuverPlanning.UpdateBurnAngle | src/components/ManeuverPlanning.tsx:59-64 | the burn-angle slider changes the burn angle and nothing else |
| ManeuverPlanning.ThrustSliderSuccessBounds | src/components/ManeuverPlanning.tsx:137-143 | for a thrust within the slider's [0.005, 0.05] the success probability is in [0.75, 0.99] |
| ManeuverPlanning.EstimatesDependOnLastSlider | src/components/ManeuverPlanning.tsx:38-57 | at thrust 0.025 the thrust path gives delta-v 5.0, while moving duration to 180 s afterwards gives delta-v 0.1125 and fuel 0.00315 with success still 0.95 |
| ManeuverPlanning.SuccessColor | src/components/ManeuverPlanning.tsx:78-82 | the colour is success iff p ≥ 0.8, warning iff 0.6 ≤ p < 0.8, destructive iff p < 0.6 |
| ManeuverPlanning.SuccessBadge | src/components/ManeuverPlanning.tsx:226-228 | the badge reads HIGH on the default variant iff p ≥ 0.8, MEDIUM on the outline variant iff 0.6 ≤ p < 0.8, LOW on the destructive variant iff p < 0.6 |
| ManeuverPlanning.BadgeAgreesWithColor | src/components/ManeuverPlanning.tsx:225-229 | the badge label uses the colour's thresholds, its variant is default/outline/destructive for HIGH/MEDIUM/LOW, and a higher probability never gets a lower label |
| ManeuverPlanning.SlidersKeepSuccessBand | src/components/ManeuverPlanning.tsx:38-64 | from a success probability in [0.75, 0.99], any sequence of in-range slider moves keeps it there, so the badge never reads LOW, and target and time-to-contact never change |
| ManeuverPlanning.ThrustHighBadge | src/components/ManeuverPlanning.tsx:45 | after a thrust move the badge reads HIGH exactly when thrust is at least 0.01 |
| ManeuverPlanning.InitialPlanNeverLow | src/components/ManeuverPlanning.tsx:26-64 | from the initial plan (success 0.87), no sequence of in-range slider moves makes the badge read LOW or changes the target D-003 |
| DebrisAnalysis.RealTimeTick | src/components/DebrisAnalysisPanel.tsx:82-86 | the signal strength is redrawn in [0.85, 1.0), the update time is the clock, and tracking is unchanged |
| DebrisAnalysis.EverySignalReachable | src/components/DebrisAnalysisPanel.tsx:85 | conversely, every signal strength in [0.85, 1.0) is produced by some draw |
| DebrisAnalysis.AnalysisTick | src/components/DebrisAnalysisPanel.tsx:88-93 | only velocity, altitude and confidence change; velocity moves under ±0.005 and altitude under ±0.25; confidence is at most 0.99, rises less than 0.005, and falls at most 0.005 below the lesser of 0.99 and its old value |
| DebrisAnalysis.EveryMotionReachable | src/components/DebrisAnalysisPanel.tsx:88-93 | conversely, every combination of velocity, altitude and confidence steps within those half-spans is taken by some draws, confidence being capped at 0.99 |
| DebrisAnalysis.Tick | src/components/DebrisAnalysisPanel.tsx:80-97 | a panel tick applies both interval updates to their own state: the object becomes the analysis tick of the draws and the indicator the real-time tick of the clock and signal draw; so id, decay prediction and tracking are kept, confidence is at most 0.99 and the signal is in [0.85, 1.0) |
| DebrisAnalysis.GetThreatLevel | src/components/DebrisAnalysisPanel.tsx:99-103 | HIGH iff c > 0.9, MEDIUM iff 0.7 < c ≤ 0.9, LOW iff c ≤ 0.7, drawn destructive/default/secondary respectively |
| DebrisAnalysis.ThreatMonotone | src/components/DebrisAnalysisPanel.tsx:99-103 | higher confidence never gives a lower threat, and the boundaries are strict: 0.9 is MEDIUM and 0.7 is LOW |
| DebrisAnalysis.DecayProgress | src/components/DebrisAnalysisPanel.tsx:263-267 | the bar value times the current orbit equals (current - target) · 100, and there is no value exactly when the current orbit is 0 |
| DebrisAnalysis.DecayProgressBounds | src/components/DebrisAnalysisPanel.tsx:263-267 | for 0 ≤ target ≤ current and current > 0 the bar is in [0, 100], empty exactly when the target is the current orbit and full exactly when the target is the ground |
| DebrisAnalysis.InitialPanelFacts | src/components/DebrisAnalysisPanel.tsx:42-72 | the initial object's decay bar shows 200/21 percent and its badge reads HIGH |
| DebrisAnalysis.RunChangesOnlyMotion | src/components/DebrisAnalysisPanel.tsx:80-97 | over any number of ticks only velocity, altitude and confidence of the object change, confidence ends at most 0.99, and tracking is unchanged |
| DebrisAnalysis.ConfidenceHasNoFloor | src/components/DebrisAnalysisPanel.tsx:92 | there is no lower clamp: from 0.7 the lowest draw gives 0.695, which reads LOW |
| DebrisAnalysis.MountedPanelKeepsTracking | src/components/DebrisAnalysisPanel.tsx:42-97 | from the mounted panel, after any number of ticks the indicator still tracks and the panel still shows D-003 with its original decay prediction |
| OrbitalView3D.CatalogueFacts | src/components/OrbitalView3D.tsx:118-168 | four satellites on radii 8 and 10, five debris objects with radii in [8.5, 12], and no id used twice |
| OrbitalView3D.Advance | src/components/OrbitalView3D.tsx:265-282 | one frame adds each body's speed to its angle, for the satellite list and the debris list alike, and changes nothing else about any body |
| OrbitalView3D.Frame | src/components/OrbitalView3D.tsx:257-263 | a frame advances the camera angle by 0.002 exactly when auto-rotate is on and never touches the auto-rotate or dragging flags |
| OrbitalView3D.FramesCamera | src/components/OrbitalView3D.tsx:250-283 | after n frames no body is added or lost, auto-rotate is unchanged, and the camera angle has moved by n·0.002 if auto-rotate is on and not at all otherwise |
| OrbitalView3D.FramesAdvanceLists | src/components/OrbitalView3D.tsx:265-282 | after n frames the satellite list and the debris list have each been advanced exactly n times |
| OrbitalView3D.BodyAfterFrames | src/components/OrbitalView3D.tsx:265-282 | after n advances a body's angle is its start plus n·speed, and its id, radius, speed and kind-specific fields (status; size and threat) are unchanged |
| OrbitalView3D.AnglesAreNotWrapped | src/components/OrbitalView3D.tsx:267 | angles are never reduced: after 629 frames, the first being the scene effect's own call of `animate()` (line 287), NS-001's angle is 6.29, past 2π |
| OrbitalView3D.Handle | src/components/OrbitalView3D.tsx:193-223 | mouse-down always leaves auto-rotate off; while auto-rotating it re-runs the scene effect (its only dependency is `autoRotate`, line 312), and the rebuilt effect's own first `animate()` (line 287) runs at once, so the bodies show one frame past their catalogue angles, the camera angle is 0 and dragging is off; otherwise it only starts dragging; mouse-up only stops dragging; an animation frame is exactly one frame step; no input but mouse-down changes auto-rotate |
| OrbitalView3D.FirstPressOnlySwitchesModes | src/components/OrbitalView3D.tsx:193-199 | from the mounted view after any number of frames, the first press leaves nothing dragging and the satellites one frame past their catalogue angles (NS-001 at 0.01), and a second press after a release does start a drag |
| OrbitalView3D.AutoRotateOnlyTurnsOff | src/components/OrbitalView3D.tsx:196-199 | after any run of inputs auto-rotate is on exactly when it was on before and no mouse-down occurred |
| OrbitalView3D.WheelDistance | src/components/OrbitalView3D.tsx:225-233 | a wheel step moves the camera along its line to the origin, to distance the absolute value of d + 0.001·deltaY |
| OrbitalView3D.ZoomAsWritten | src/components/OrbitalView3D.tsx:232-238 | the limit as written puts every camera that is not exactly at the origin in [10, 40] |
| OrbitalView3D.ZoomAsWrittenReachesOrigin | src/components/OrbitalView3D.tsx:232-238 | a wheel step of -20000 from distance 20 lands on the origin and the limit as written leaves it there, below 10 |
| OrbitalView3D.Zoom | src/components/OrbitalView3D.tsx:232-238 | the intended limit always leaves the camera in [10, 40], leaves a step that lands in range alone, and agrees with the code whenever the camera is not at the origin |
| OrbitalView3D.ZoomAll | src/components/OrbitalView3D.tsx:225-239 | under the intended limit, after any non-empty sequence of wheel events the camera distance is in [10, 40] |
| OrbitalView.PairsExaminedOnce | src/components/OrbitalView.tsx:73-74 | the nested loops visit exactly the pairs a < b < n, none twice, none of a satellite with itself, n(n-1)/2 in all |
| OrbitalView.KeepMembers | src/components/OrbitalView.tsx:75 | a pair is drawn exactly when it was examined and the rule accepts it |
| OrbitalView.LinkRule | src/components/OrbitalView.tsx:73-75 | satellites a and b are linked iff a < b and either is coordinating (`Coordinated`, line 75); no satellite is linked to itself |
| OrbitalView.DrawRow | src/components/OrbitalView.tsx:74-83 | the inner loop for satellite i examines (i, i+1), …, (i, n-1) in order and keeps exactly the accepted ones |
| OrbitalView.DrawLinks | src/components/OrbitalView.tsx:73-84 | the loops as written examine exactly the reference pair sequence and draw exactly the accepted pairs, in order |
| OrbitalView.LinksOfFour | src/components/OrbitalView.tsx:73-84 | among four satellites of which only the second coordinates, exactly the three links touching it are drawn |
| OrbitalView.CatalogueLinks | src/components/OrbitalView.tsx:30-35 | in the fixed catalogue, where NS-002 alone coordinates, exactly three links are drawn: NS-001–NS-002, NS-002–NS-003, NS-002–NS-004 |
| OrbitalView.SizeRadius | src/components/OrbitalView.tsx:93 | a micro disc has radius 3, a small one 5 and a large one 8, and no two classes share a radius |
| OrbitalView.SizeRadiusIncreasing | src/components/OrbitalView.tsx:93 | a larger size class is always drawn with a strictly larger disc (micro 3 < small 5 < large 8) |
| OrbitalView.Positions | src/components/OrbitalView.tsx:101 | the reference selection: the positions of a list whose entries pass a test, each once, in increasing order, and no others |
| OrbitalView.DrawDebris | src/components/OrbitalView.tsx:87-107 | for any debris list the pass draws each disc with its size class's radius and adds the glow to exactly the high-threat entries (`Glows`, line 101), in list order |
| OrbitalView.DrawSatellites | src/components/OrbitalView.tsx:110-137 | for any satellite list the pass adds the scanning ring to exactly the tracking satellites (`HasScanRing`, line 130), in list order |
| OrbitalView.CatalogueDecorations | src/components/OrbitalView.tsx:30-43 | in the catalogue only the third debris object, D-003, glows and only the third satellite, NS-003, has a scanning ring |

## Left out

- Rendering is not modelled: three.js scenes, meshes, lights, the renderer, resizing, teardown and all 2D canvas drawing calls. They are calls into libraries whose behaviour is not part of this model.
- Trigonometry and vector geometry are not modelled: cos/sin positions, mesh spin, Earth rotation and the mouse-move axis-angle rotation. Bodies are modelled by their angle only, and the zoom by the camera's scalar distance from the origin.
- OrbitalView3D.WheelDistance: assumes the camera faces the origin when the wheel turns. Auto-rotate and mouse-drag end with `lookAt(0, 0, 0)`. The wheel handler does not call `lookAt`: it moves the camera along its own view direction and rescales it with `normalize()`, which keeps its direction, so a camera facing the origin keeps facing it. The exception is a step that carries the camera through the origin and out the other side; then it faces away, and a following step would move it the opposite way.
- OrbitalView3D.FramesCamera: states the camera angle only, not the camera position. Auto-rotate re-places x and z on a circle of radius 20, which is geometry.
- OrbitalView3D.Handle: of the scene effect's re-run on the first mouse-down, the model keeps what the view's state shows: fresh bodies one frame past their catalogue angles (the effect's own first `animate()`), the camera angle at 0 and dragging off. Three other consequences are outside the model. The camera is re-created at (15, 15, 15), which resets the zoom distance; the zoom is modelled separately, on a distance alone. The old bodies stay in the refs and keep advancing, but nothing draws them. Mouse-move rotation is geometry.
- `isPaused`, `showSatellites`, `showDebris` and `selectedObject` are declared in the 3D view but nothing reads them.
- Timers are not modelled: `setInterval`, `clearInterval`, `requestAnimationFrame` and effect dependencies. One interval firing or animation frame is one call of a step function, and a run is a sequence of such calls.
- `toLocaleTimeString`, `toFixed` and `Date` objects are not modelled. Timestamps are integers in milliseconds, and an alert's id is a string parameter standing for `Date.now().toString()`, so ids need not be unique.
- IEEE-754 rounding is not modelled. Arithmetic is on exact reals, and `Math.PI` is the decimal 3.141592653589793.
- DebrisAnalysis.DecayProgress: a current orbit of 0 gives no value. The source would divide by zero and hand the bar a non-finite number.
- RealtimeData.ClassifyThreat: the source draws its second random number only when the first does not already give "high". The model always takes two draws and ignores the second in that case.
- The maneuver planner's execute and simulate buttons are not modelled. They only raise toasts.
- The 2D view's unused `angle` counter and the glow drawn on every satellite are not modelled.
- These presentational files are not modelled: `src/components/DebrisTracking.tsx`, `src/components/AlertFeed.tsx`, `src/components/SystemMetrics.tsx`, `src/components/SatelliteStatus.tsx` and `src/pages/Index.tsx`. They hold static tables, class lookups and layout.
- Alert dismiss, acknowledge, clear and filter, pause and visibility toggles, object picking, a camera reset and angle wrap-around would be natural for such a dashboard. The code has none of these, so there is nothing to model.

## Findings

| source | as written | input that shows it | evidently intended | confidence | as-written member | corrected member |
|---|---|---|---|---|---|---|
| src/components/OrbitalView3D.tsx:232-238 | a camera below distance 10 is rescaled with `normalize().multiplyScalar(10)`; `normalize()` leaves a zero vector at zero, so a wheel step landing exactly on the origin stays at distance 0 | camera at distance 20 facing the origin, wheel deltaY = -20000 | the camera's distance from the origin is always in [10, 40] | low (needs an exact landing on the origin in floating point); not executed | OrbitalView3D.ZoomAsWrittenReachesOrigin | OrbitalView3D.Zoom |

=== FILE: common.dfy ===
/** Vocabulary shared by every component of the dashboard: random draws,
    the clamps the simulators apply, and the small enumerations that several
    views use. */
module Common {

  datatype Option<+T> = None | Some(value: T)

  /** A value `Math.random()` can return: uniform in the half-open unit interval. */
  predicate IsDraw(r: real) {
    0.0 <= r < 1.0
  }

  function Min(a: real, b: real): (m: real)
    ensures m <= a && m <= b
    ensures m == a || m == b
  {
    if a <= b then a else b
  }

  function Max(a: real, b: real): (m: real)
    ensures m >= a && m >= b
    ensures m == a || m == b
  {
    if a >= b then a else b
  }

  /** `Math.max(lo, Math.min(hi, x))`, the clamp every bounded channel uses. */
  function Clamp(lo: real, hi: real, x: real): (r: real)
    requires lo <= hi
    ensures lo <= r <= hi
    ensures lo <= x <= hi ==> r == x
    ensures x < lo ==> r == lo
    ensures x > hi ==> r == hi
  {
    Max(lo, Min(hi, x))
  }

  /** `(Math.random() - 0.5) * span`: a step uniform in [-span/2, span/2). */
  function Centered(r: real, span: real): (d: real)
    requires IsDraw(r) && span > 0.0
    ensures -span / 2.0 <= d < span / 2.0
  {
    (r - 0.5) * span
  }

  /** `Math.floor(Math.random() * n)`: the index used to pick from a pool of `n` entries. */
  function PickIndex(r: real, n: nat): (i: int)
    requires IsDraw(r) && n > 0
    ensures 0 <= i < n
    ensures i as real <= r * n as real < i as real + 1.0
  {
    assert r * n as real < n as real by {
      assert (1.0 - r) * n as real > 0.0;
    }
    (r * n as real).Floor
  }

  /** The low / medium / high scale used for debris threat and for badges. */
  datatype Level = Low | Medium | High {
    function Rank(): (k: nat)
      ensures k <= 2
    {
      match this
      case Low => 0
      case Medium => 1
      case High => 2
    }
  }

  /** Operating mode of a nano-satellite. */
  datatype SatStatus = Active | Coordinating | Tracking

  /** The styling variants of the dashboard's badge component. */
  datatype Variant = Default | Outline | Secondary | Destructive

  /** A badge: the level it reads and the variant it is drawn with. */
  datatype Badge = Badge(level: Level, variant: Variant)
}

=== FILE: debris_analysis.dfy ===
/** The debris analysis panel: a 2-second tick that jitters the selected
    object's velocity and altitude and nudges its classification confidence
    under a 0.99 cap, the confidence-to-threat badge, and the orbital-decay
    progress bar. */
module DebrisAnalysis {
  import opened Common

  datatype Size = Size(width: real, height: real, depth: real)

  /** Orbits in km, time in days. */
  datatype DecayPrediction = DecayPrediction(
    currentOrbit: real,
    targetOrbit: real,
    estimatedDays: real,
    probability: real)

  datatype AiFeatures = AiFeatures(
    material: string,
    materialConfidence: real,
    shape: string,
    shapeConfidence: real,
    origin: string,
    originConfidence: real)

  datatype PlanSummary = PlanSummary(
    thrust: real,
    duration: real,
    deltaV: real,
    fuelRequired: real,
    successProbability: real)

  datatype Analysis = Analysis(
    id: string,
    name: string,
    classification: string,
    confidence: real,
    size: Size,
    mass: real,
    velocity: real,
    altitude: real,
    decayPrediction: DecayPrediction,
    aiFeatures: AiFeatures,
    maneuverPlan: Option<PlanSummary>)

  const InitialAnalysis := Analysis(
    "D-003", "Large Fragment Alpha", "Rocket Body Fragment", 0.94,
    Size(2.3, 1.8, 0.9), 45.2, 7.8, 420.0,
    DecayPrediction(420.0, 380.0, 87.0, 0.89),
    AiFeatures("Aluminum Alloy", 0.91, "Irregular Cylindrical", 0.88,
               "Decommissioned Launch Vehicle", 0.94),
    Some(PlanSummary(0.025, 180.0, 4.5, 0.12, 0.87)))

  /** The most confidence a tick can produce. */
  const ConfidenceCap: real := 0.99

  /** The tracking indicator; `lastUpdate` is in milliseconds. */
  datatype RealTime = RealTime(tracking: bool, lastUpdate: int, signalStrength: real)

  /** The indicator as the panel mounts at clock reading `now`. */
  function InitialRealTime(now: int): RealTime {
    RealTime(true, now, 0.92)
  }

  /** The panel as it mounts: the fixed object and a tracking indicator. */
  function InitialPanel(now: int): Panel {
    Panel(InitialAnalysis, InitialRealTime(now))
  }

  /** The draws one tick consumes, in the order the source makes them. */
  datatype TickDraws = TickDraws(signal: real, velocity: real, altitude: real, confidence: real)

  predicate ValidTickDraws(d: TickDraws) {
    IsDraw(d.signal) && IsDraw(d.velocity) && IsDraw(d.altitude) && IsDraw(d.confidence)
  }

  /** The indicator refresh: a fresh signal strength in [0.85, 1.0). */
  function RealTimeTick(prev: RealTime, now: int, r: real): (s: RealTime)
    requires IsDraw(r)
    ensures 0.85 <= s.signalStrength < 1.0
    ensures s.tracking == prev.tracking && s.lastUpdate == now
  {
    prev.(lastUpdate := now, signalStrength := 0.85 + r * 0.15)
  }

  /** Every signal strength in [0.85, 1.0) is drawn by some draw. */
  lemma EverySignalReachable(p: RealTime, now: int, s: real)
    requires 0.85 <= s < 1.0
    ensures IsDraw((s - 0.85) / 0.15)
    ensures RealTimeTick(p, now, (s - 0.85) / 0.15).signalStrength == s
  {
  }

  /** The object update: only velocity, altitude and confidence move. */
  function AnalysisTick(prev: Analysis, d: TickDraws): (a: Analysis)
    requires ValidTickDraws(d)
    ensures a.(velocity := prev.velocity, altitude := prev.altitude, confidence := prev.confidence) == prev
    ensures -0.005 <= a.velocity - prev.velocity < 0.005
    ensures -0.25 <= a.altitude - prev.altitude < 0.25
    ensures a.confidence <= ConfidenceCap
    ensures a.confidence < prev.confidence + 0.005
    ensures a.confidence >= Min(ConfidenceCap, prev.confidence - 0.005)
  {
    prev.(
      velocity := prev.velocity + Centered(d.velocity, 0.01),
      altitude := prev.altitude + Centered(d.altitude, 0.5),
      confidence := Min(ConfidenceCap, prev.confidence + Centered(d.confidence, 0.01)))
  }

  /** The draws that move velocity, altitude and confidence by `dv`, `da`
      and `dc`. */
  function MotionDraws(dv: real, da: real, dc: real): TickDraws {
    TickDraws(0.0, dv / 0.01 + 0.5, da / 0.5 + 0.5, dc / 0.01 + 0.5)
  }

  /** Every combination of steps within half their spans is taken by some
      draws; confidence lands where it points unless that passes 0.99. */
  lemma EveryMotionReachable(prev: Analysis, dv: real, da: real, dc: real)
    requires -0.005 <= dv < 0.005 && -0.25 <= da < 0.25 && -0.005 <= dc < 0.005
    ensures ValidTickDraws(MotionDraws(dv, da, dc))
    ensures AnalysisTick(prev, MotionDraws(dv, da, dc)).velocity == prev.velocity + dv
    ensures AnalysisTick(prev, MotionDraws(dv, da, dc)).altitude == prev.altitude + da
    ensures AnalysisTick(prev, MotionDraws(dv, da, dc)).confidence == Min(ConfidenceCap, prev.confidence + dc)
  {
  }

  datatype Panel = Panel(debris: Analysis, realTime: RealTime)

  function Tick(p: Panel, now: int, d: TickDraws): (q: Panel)
    requires ValidTickDraws(d)
    ensures q.debris == AnalysisTick(p.debris, d)
    ensures q.realTime == RealTimeTick(p.realTime, now, d.signal)
    ensures q.debris.confidence <= ConfidenceCap
    ensures q.debris.id == p.debris.id && q.debris.decayPrediction == p.debris.decayPrediction
    ensures q.realTime.tracking == p.realTime.tracking
    ensures 0.85 <= q.realTime.signalStrength < 1.0
  {
    Panel(AnalysisTick(p.debris, d), RealTimeTick(p.realTime, now, d.signal))
  }

  /** Threat from classification confidence; both thresholds are strict. */
  function GetThreatLevel(confidence: real): (t: Badge)
    ensures t.level == High <==> confidence > 0.9
    ensures t.level == Medium <==> 0.7 < confidence <= 0.9
    ensures t.level == Low <==> confidence <= 0.7
    ensures t.variant == (match t.level case High => Destructive case Medium => Default case Low => Secondary)
  {
    if confidence > 0.9 then Badge(High, Destructive)
    else if confidence > 0.7 then Badge(Medium, Default)
    else Badge(Low, Secondary)
  }

  /** Higher confidence never yields a lower threat, and the boundary values
      fall to the lower band. */
  lemma ThreatMonotone(c1: real, c2: real)
    requires c1 <= c2
    ensures GetThreatLevel(c1).level.Rank() <= GetThreatLevel(c2).level.Rank()
    ensures GetThreatLevel(0.9).level == Medium && GetThreatLevel(0.7).level == Low
  {
  }

  /** The progress bar value `(current - target) / current * 100`. A zero
      current orbit has no value (the source would divide by zero). */
  function DecayProgress(dp: DecayPrediction): (v: Option<real>)
    ensures v.None? <==> dp.currentOrbit == 0.0
    ensures v.Some? ==> v.value * dp.currentOrbit == (dp.currentOrbit - dp.targetOrbit) * 100.0
  {
    if dp.currentOrbit == 0.0 then None
    else Some((dp.currentOrbit - dp.targetOrbit) / dp.currentOrbit * 100.0)
  }

  /** For a decay target between the ground and the current orbit the bar
      stays within [0, 100]; a target at the ground fills it, and a target
      equal to the current orbit leaves it empty. */
  lemma DecayProgressBounds(dp: DecayPrediction)
    requires dp.currentOrbit > 0.0 && 0.0 <= dp.targetOrbit <= dp.currentOrbit
    ensures DecayProgress(dp).Some?
    ensures 0.0 <= DecayProgress(dp).value <= 100.0
    ensures DecayProgress(dp).value == 0.0 <==> dp.targetOrbit == dp.currentOrbit
    ensures DecayProgress(dp).value == 100.0 <==> dp.targetOrbit == 0.0
  {
    var c := dp.currentOrbit;
    var t := dp.targetOrbit;
    var v := (c - t) / c * 100.0;
    assert v * c == (c - t) * 100.0;
    assert (c - t) * 100.0 <= c * 100.0;
  }

  /** The initial object: 420 km toward 380 km shows 200/21 percent, with a HIGH badge. */
  lemma InitialPanelFacts()
    ensures DecayProgress(InitialAnalysis.decayPrediction) == Some(200.0 / 21.0)
    ensures GetThreatLevel(InitialAnalysis.confidence).level == High
  {
  }

  function Run(p: Panel, firings: seq<(int, TickDraws)>): Panel
    requires forall k :: 0 <= k < |firings| ==> ValidTickDraws(firings[k].1)
    decreases |firings|
  {
    if |firings| == 0 then p else Run(Tick(p, firings[0].0, firings[0].1), firings[1..])
  }

  /** Over any number of ticks only velocity, altitude and confidence of the
      object change, and after at least one tick confidence is at most 0.99. */
  lemma {:induction false} RunChangesOnlyMotion(p: Panel, firings: seq<(int, TickDraws)>)
    requires forall k :: 0 <= k < |firings| ==> ValidTickDraws(firings[k].1)
    ensures var q := Run(p, firings).debris;
      q.(velocity := p.debris.velocity, altitude := p.debris.altitude, confidence := p.debris.confidence) == p.debris
    ensures |firings| > 0 ==> Run(p, firings).debris.confidence <= ConfidenceCap
    ensures Run(p, firings).realTime.tracking == p.realTime.tracking
    decreases |firings|
  {
    if |firings| > 0 {
      RunChangesOnlyMotion(Tick(p, firings[0].0, firings[0].1), firings[1..]);
    }
  }

  /** The mounted panel never stops tracking and never changes which object
      it shows or that object's decay prediction, whatever ticks follow. */
  lemma MountedPanelKeepsTracking(now: int, firings: seq<(int, TickDraws)>)
    requires forall k :: 0 <= k < |firings| ==> ValidTickDraws(firings[k].1)
    ensures Run(InitialPanel(now), firings).realTime.tracking
    ensures Run(InitialPanel(now), firings).debris.id == "D-003"
    ensures Run(InitialPanel(now), firings).debris.decayPrediction == InitialAnalysis.decayPrediction
  {
    RunChangesOnlyMotion(InitialPanel(now), firings);
    var q := Run(InitialPanel(now), firings).debris;
    assert q.(velocity := InitialAnalysis.velocity, altitude := InitialAnalysis.altitude,
              confidence := InitialAnalysis.confidence).id == q.id;
  }

  /** There is no lower clamp: from confidence 0.7 the lowest draw gives
      0.695, and confidence keeps falling with further low draws. */
  lemma ConfidenceHasNoFloor()
    ensures AnalysisTick(InitialAnalysis.(confidence := 0.7), TickDraws(0.5, 0.5, 0.5, 0.0)).confidence == 0.695
    ensures GetThreatLevel(0.695).level == Low
  {
  }
}

=== FILE: maneuver_planning.dfy ===
/** The maneuver planner: three sliders rewrite fields of the plan, and the
    success probability is shown as a colour and a HIGH/MEDIUM/LOW badge. */
module ManeuverPlanning {
  import opened Common

  datatype Plan = Plan(
    targetDebris: string,
    thrustLevel: real,
    duration: real,
    burnAngle: real,
    estimatedDeltaV: real,
    fuelCost: real,
    successProbability: real,
    timeToContact: real)

  /** The plan the planner starts with (hard-coded, not derived from the sliders). */
  const InitialPlan := Plan("D-003", 0.025, 180.0, 45.0, 4.5, 0.12, 0.87, 3.2)

  /** The most success probability the thrust slider can produce. */
  const SuccessCap: real := 0.99

  /** The delta-v and fuel a plan implies. */
  datatype Estimates = Estimates(deltaV: real, fuel: real)

  /** The reference estimator: delta-v is 0.025 and fuel 0.0007 per unit of
      thrust times burn duration, so both scale with the burn's total impulse
      and stand in a fixed 0.025 : 0.0007 ratio. */
  function Estimate(thrust: real, duration: real): (e: Estimates)
    ensures e.deltaV * 0.0007 == e.fuel * 0.025
    ensures thrust == 0.0 || duration == 0.0 ==> e == Estimates(0.0, 0.0)
    ensures thrust > 0.0 && duration > 0.0 ==> e.deltaV > 0.0 && e.fuel > 0.0
  {
    Estimates(thrust * duration * 0.025, thrust * duration * 0.0007)
  }

  /** The estimates a plan currently shows. */
  function Shown(p: Plan): Estimates {
    Estimates(p.estimatedDeltaV, p.fuelCost)
  }

  /** The thrust slider: sets thrust and re-derives delta-v (200 per unit of
      thrust), fuel (5 per unit) and success (0.7 plus 10 per unit, capped at
      0.99) from thrust alone. */
  function UpdateThrust(p: Plan, thrust: real): (q: Plan)
    ensures q.thrustLevel == thrust
    ensures q.estimatedDeltaV == 200.0 * thrust && q.fuelCost == 5.0 * thrust
    ensures q.successProbability == Min(SuccessCap, 0.7 + 10.0 * thrust)
    ensures q.successProbability == SuccessCap <==> thrust >= 0.029
    ensures q.duration == p.duration && q.burnAngle == p.burnAngle
    ensures q.targetDebris == p.targetDebris && q.timeToContact == p.timeToContact
  {
    p.(
      thrustLevel := thrust,
      estimatedDeltaV := thrust * 200.0,
      fuelCost := thrust * 5.0,
      successProbability := Min(SuccessCap, 0.7 + thrust * 10.0))
  }

  /** The duration slider: sets duration and shows the reference estimate for
      the plan's thrust and the new duration; success probability is left as
      it was. */
  function UpdateDuration(p: Plan, duration: real): (q: Plan)
    ensures q.duration == duration
    ensures Shown(q) == Estimate(q.thrustLevel, q.duration)
    ensures q.thrustLevel == p.thrustLevel && q.successProbability == p.successProbability
    ensures q.burnAngle == p.burnAngle
    ensures q.targetDebris == p.targetDebris && q.timeToContact == p.timeToContact
  {
    p.(
      duration := duration,
      estimatedDeltaV := p.thrustLevel * duration * 0.025,
      fuelCost := p.thrustLevel * duration * 0.0007)
  }

  /** A product with a common factor `t` is equal exactly when `t` is zero or
      the other factors are. */
  lemma CommonFactor(t: real, b: real, c: real)
    ensures t * b == t * c <==> t == 0.0 || b == c
  {
    assert t * b - t * c == t * (b - c);
  }

  /** The thrust slider does not show the reference estimate. Its delta-v
      agrees with it only at zero thrust or a duration of 8000 s, and its fuel
      only at zero thrust or a duration of 50000/7 s, so inside the sliders'
      ranges neither figure ever agrees. */
  lemma ThrustPathLeavesEstimate(p: Plan, t: real)
    ensures UpdateThrust(p, t).estimatedDeltaV == Estimate(t, p.duration).deltaV
      <==> t == 0.0 || p.duration == 8000.0
    ensures UpdateThrust(p, t).fuelCost == Estimate(t, p.duration).fuel
      <==> t == 0.0 || 7.0 * p.duration == 50000.0
    ensures ThrustInRange(t) && DurationInRange(p.duration) ==>
      UpdateThrust(p, t).estimatedDeltaV != Estimate(t, p.duration).deltaV &&
      UpdateThrust(p, t).fuelCost != Estimate(t, p.duration).fuel
  {
    var d := p.duration;
    assert Estimate(t, d).deltaV == t * (d * 0.025);
    assert Estimate(t, d).fuel == t * (d * 0.0007);
    assert UpdateThrust(p, t).estimatedDeltaV == t * 200.0;
    assert UpdateThrust(p, t).fuelCost == t * 5.0;
    CommonFactor(t, 200.0, d * 0.025);
    CommonFactor(t, 5.0, d * 0.0007);
    assert d * 0.025 == 200.0 <==> d == 8000.0;
  }

  /** The burn-angle slider: it feeds no estimate. */
  function UpdateBurnAngle(p: Plan, angle: real): (q: Plan)
    ensures q.burnAngle == angle
    ensures q.(burnAngle := p.burnAngle) == p
  {
    p.(burnAngle := angle)
  }

  /** Slider ranges (min, max, step). */
  predicate ThrustInRange(t: real) { 0.005 <= t <= 0.05 }
  predicate DurationInRange(d: real) { 60.0 <= d <= 300.0 }
  /** The burn-angle slider's maximum is 360 itself, so a full turn is a
      valid setting alongside 0. */
  predicate AngleInRange(a: real) { 0.0 <= a <= 360.0 }

  /** In the thrust slider's range the success probability is at least 0.75. */
  lemma ThrustSliderSuccessBounds(p: Plan, t: real)
    requires ThrustInRange(t)
    ensures 0.75 <= UpdateThrust(p, t).successProbability <= SuccessCap
  {
  }

  /** The estimates depend on which slider moved last: at thrust 0.025 the
      thrust path gives 5.0 m/s and the duration path at 180 s gives 0.1125. */
  lemma EstimatesDependOnLastSlider(p: Plan)
    ensures UpdateThrust(p, 0.025).estimatedDeltaV == 5.0
    ensures UpdateDuration(UpdateThrust(p, 0.025), 180.0).estimatedDeltaV == 0.1125
    ensures UpdateDuration(UpdateThrust(p, 0.025), 180.0).fuelCost == 0.00315
    ensures UpdateDuration(UpdateThrust(p, 0.025), 180.0).successProbability == 0.95
  {
  }

  /** The text colour for a probability. */
  datatype Tone = SuccessTone | WarningTone | DestructiveTone

  function SuccessColor(probability: real): (c: Tone)
    ensures c == SuccessTone <==> probability >= 0.8
    ensures c == WarningTone <==> 0.6 <= probability < 0.8
    ensures c == DestructiveTone <==> probability < 0.6
  {
    if probability >= 0.8 then SuccessTone
    else if probability >= 0.6 then WarningTone
    else DestructiveTone
  }

  /** The success badge: HIGH on the default variant from 0.8, MEDIUM on the
      outline variant from 0.6, LOW on the destructive variant below that.
      Label and variant are each written as their own nested conditional. */
  function SuccessBadge(probability: real): (b: Badge)
    ensures b.level == High <==> probability >= 0.8
    ensures b.level == Medium <==> 0.6 <= probability < 0.8
    ensures b.level == Low <==> probability < 0.6
    ensures b.variant == Default <==> probability >= 0.8
    ensures b.variant == Outline <==> 0.6 <= probability < 0.8
    ensures b.variant == Destructive <==> probability < 0.6
  {
    Badge(
      if probability >= 0.8 then High else if probability >= 0.6 then Medium else Low,
      if probability >= 0.8 then Default else if probability >= 0.6 then Outline else Destructive)
  }

  /** The tone a badge level is shown with. */
  function LevelTone(l: Level): Tone
  {
    match l
    case High => SuccessTone
    case Medium => WarningTone
    case Low => DestructiveTone
  }

  /** The badge and the colour use the same thresholds, the variant follows
      the label, and a higher probability never gets a lower badge. */
  lemma BadgeAgreesWithColor(probability: real, other: real)
    ensures LevelTone(SuccessBadge(probability).level) == SuccessColor(probability)
    ensures SuccessBadge(probability).variant ==
      (match SuccessBadge(probability).level case High => Default case Medium => Outline case Low => Destructive)
    ensures probability <= other ==> SuccessBadge(probability).level.Rank() <= SuccessBadge(other).level.Rank()
  {
  }

  /** A slider movement. */
  datatype SliderEvent = Thrust(t: real) | Duration(d: real) | Angle(a: real)

  predicate InSliderRange(e: SliderEvent) {
    match e
    case Thrust(t) => ThrustInRange(t)
    case Duration(d) => DurationInRange(d)
    case Angle(a) => AngleInRange(a)
  }

  function ApplySlider(p: Plan, e: SliderEvent): Plan {
    match e
    case Thrust(t) => UpdateThrust(p, t)
    case Duration(d) => UpdateDuration(p, d)
    case Angle(a) => UpdateBurnAngle(p, a)
  }

  function ApplySliders(p: Plan, events: seq<SliderEvent>): Plan
    decreases |events|
  {
    if |events| == 0 then p else ApplySliders(ApplySlider(p, events[0]), events[1..])
  }

  /** From a plan whose success probability is in [0.75, 0.99], as the
      initial plan's 0.87 is, any sequence of in-range slider moves keeps it
      there, so the badge is never LOW,
      and leaves the target and time-to-contact untouched. */
  lemma {:induction false} SlidersKeepSuccessBand(p: Plan, events: seq<SliderEvent>)
    requires 0.75 <= p.successProbability <= SuccessCap
    requires forall k :: 0 <= k < |events| ==> InSliderRange(events[k])
    ensures 0.75 <= ApplySliders(p, events).successProbability <= SuccessCap
    ensures SuccessBadge(ApplySliders(p, events).successProbability).level != Low
    ensures ApplySliders(p, events).targetDebris == p.targetDebris
    ensures ApplySliders(p, events).timeToContact == p.timeToContact
    decreases |events|
  {
    if |events| > 0 {
      var p1 := ApplySlider(p, events[0]);
      if events[0].Thrust? {
        ThrustSliderSuccessBounds(p, events[0].t);
      }
      SlidersKeepSuccessBand(p1, events[1..]);
    }
  }

  /** From the plan the planner starts with, no sequence of in-range slider
      moves brings the badge down to LOW or changes the target. */
  lemma InitialPlanNeverLow(events: seq<SliderEvent>)
    requires forall k :: 0 <= k < |events| ==> InSliderRange(events[k])
    ensures SuccessBadge(ApplySliders(InitialPlan, events).successProbability).level != Low
    ensures ApplySliders(InitialPlan, events).targetDebris == "D-003"
  {
    SlidersKeepSuccessBand(InitialPlan, events);
  }

  /** The badge is HIGH after a thrust move exactly when thrust is at least 0.01. */
  lemma ThrustHighBadge(p: Plan, t: real)
    ensures SuccessBadge(UpdateThrust(p, t).successProbability).level == High <==> t >= 0.01
  {
  }
}

=== FILE: orbital_view.dfy ===
/** The 2D canvas orbital view, reduced to the decisions it makes while
    drawing: which satellite pairs get a coordination link, how large each
    debris disc is, and which bodies get a glow or a scanning ring. */
module OrbitalView {
  import opened Common

  /** Canvas coordinates in pixels. */
  datatype Satellite = Satellite(id: string, x: real, y: real, status: SatStatus)

  datatype SizeClass = Micro | Small | Large {
    function Rank(): nat {
      match this
      case Micro => 0
      case Small => 1
      case Large => 2
    }
  }

  datatype Debris = Debris(id: string, x: real, y: real, size: SizeClass, threat: Level)

  const Satellites: seq<Satellite> := [
    Satellite("NS-001", 150.0, 150.0, Active),
    Satellite("NS-002", 350.0, 200.0, Coordinating),
    Satellite("NS-003", 250.0, 350.0, Tracking),
    Satellite("NS-004", 450.0, 300.0, Active)
  ]

  const DebrisField: seq<Debris> := [
    Debris("D-001", 200.0, 180.0, Micro, Low),
    Debris("D-002", 380.0, 250.0, Small, Medium),
    Debris("D-003", 300.0, 300.0, Large, High),
    Debris("D-004", 180.0, 280.0, Micro, Low),
    Debris("D-005", 420.0, 180.0, Small, Medium)
  ]

  /** A pair of satellite indices, earlier one first. */
  datatype Link = Link(from: nat, to: nat)

  /** The link rule: either end is coordinating. */
  predicate Coordinated(a: Satellite, b: Satellite) {
    a.status == Coordinating || b.status == Coordinating
  }

  /** Lexicographic order on pairs, the order the nested loops visit them in. */
  predicate Before(p: Link, q: Link) {
    p.from < q.from || (p.from == q.from && p.to < q.to)
  }

  predicate StrictlySorted(s: seq<Link>) {
    forall k, l :: 0 <= k < l < |s| ==> Before(s[k], s[l])
  }

  /** Both ends name a satellite of the list and the link rule accepts them. */
  predicate Linked(sats: seq<Satellite>, p: Link) {
    p.from < |sats| && p.to < |sats| && Coordinated(sats[p.from], sats[p.to])
  }

  /** The inner loop for outer index i, stopped before inner index j:
      `(i, i + 1), ..., (i, j - 1)`. */
  function RowPairs(i: nat, j: nat): seq<Link>
    decreases j
  {
    if j <= i + 1 then [] else RowPairs(i, j - 1) + [Link(i, j - 1)]
  }

  /** Both loops over n satellites, stopped before outer index i. */
  function PairsUpTo(n: nat, i: nat): seq<Link>
    decreases i
  {
    if i == 0 then [] else PairsUpTo(n, i - 1) + RowPairs(i - 1, n)
  }

  /** Every pair the nested `forEach` / `slice(i + 1)` loops examine, in visiting order. */
  function Pairs(n: nat): seq<Link> {
    PairsUpTo(n, n)
  }

  /** Concatenating two sorted lists, all of the first before all of the second. */
  lemma SortedAppend(a: seq<Link>, b: seq<Link>)
    requires StrictlySorted(a) && StrictlySorted(b)
    requires forall k, l :: 0 <= k < |a| && 0 <= l < |b| ==> Before(a[k], b[l])
    ensures StrictlySorted(a + b)
  {
    forall k, l | 0 <= k < l < |a + b|
      ensures Before((a + b)[k], (a + b)[l])
    {
      if l < |a| {
        assert (a + b)[k] == a[k] && (a + b)[l] == a[l];
      } else if k < |a| {
        assert (a + b)[k] == a[k] && (a + b)[l] == b[l - |a|];
      } else {
        assert (a + b)[k] == b[k - |a|] && (a + b)[l] == b[l - |a|];
      }
    }
  }

  lemma {:induction false} RowPairsShape(i: nat, j: nat)
    ensures forall k :: 0 <= k < |RowPairs(i, j)| ==> RowPairs(i, j)[k] == Link(i, i + 1 + k)
    ensures |RowPairs(i, j)| == if j <= i + 1 then 0 else j - i - 1
    ensures StrictlySorted(RowPairs(i, j))
    decreases j
  {
    if j > i + 1 {
      RowPairsShape(i, j - 1);
      SortedAppend(RowPairs(i, j - 1), [Link(i, j - 1)]);
    }
  }

  /** The pairs of one row are exactly those starting at i and ending below j. */
  lemma RowPairsMembers(i: nat, j: nat)
    ensures forall p :: p in RowPairs(i, j) <==> p.from == i && i < p.to < j
  {
    RowPairsShape(i, j);
    forall p: Link | p.from == i && i < p.to < j
      ensures p in RowPairs(i, j)
    {
      assert RowPairs(i, j)[p.to - i - 1] == p;
    }
  }

  lemma {:induction false} PairsUpToMembers(n: nat, i: nat)
    ensures forall p :: p in PairsUpTo(n, i) <==> p.from < i && p.from < p.to < n
    decreases i
  {
    if i > 0 {
      var done: seq<Link>, row: seq<Link> := PairsUpTo(n, i - 1), RowPairs(i - 1, n);
      PairsUpToMembers(n, i - 1);
      RowPairsMembers(i - 1, n);
      forall p: Link
        ensures p in done + row <==> p.from < i && p.from < p.to < n
      {
        assert p in done + row <==> p in done || p in row;
        if p.from < i - 1 {
          assert p !in row;
        } else {
          assert p !in done;
        }
      }
    }
  }

  /** Every pair examined before outer index i starts below i. */
  lemma {:induction false} PairsUpToFromBelow(n: nat, i: nat)
    ensures forall k :: 0 <= k < |PairsUpTo(n, i)| ==> PairsUpTo(n, i)[k].from < i
    decreases i
  {
    if i > 0 {
      var done: seq<Link>, row: seq<Link> := PairsUpTo(n, i - 1), RowPairs(i - 1, n);
      PairsUpToFromBelow(n, i - 1);
      RowPairsShape(i - 1, n);
      forall k | 0 <= k < |done + row|
        ensures (done + row)[k].from < i
      {
        if k < |done| {
          assert (done + row)[k] == done[k];
        } else {
          assert (done + row)[k] == row[k - |done|];
        }
      }
    }
  }

  lemma {:induction false} PairsUpToSorted(n: nat, i: nat)
    ensures StrictlySorted(PairsUpTo(n, i))
    decreases i
  {
    if i > 0 {
      var done: seq<Link>, row: seq<Link> := PairsUpTo(n, i - 1), RowPairs(i - 1, n);
      PairsUpToSorted(n, i - 1);
      PairsUpToFromBelow(n, i - 1);
      RowPairsShape(i - 1, n);
      forall k, l | 0 <= k < |done| && 0 <= l < |row|
        ensures Before(done[k], row[l])
      {
        assert done[k].from < i - 1 == row[l].from;
      }
      SortedAppend(done, row);
    }
  }

  /** The arithmetic of adding row i - 1 to the count. */
  lemma CountStep(n: nat, i: nat)
    requires 1 <= i <= n
    ensures i * (2 * n - i - 1) == (i - 1) * (2 * n - (i - 1) - 1) + 2 * (n - i)
  {
  }

  lemma {:induction false} PairsUpToCount(n: nat, i: nat)
    requires i <= n
    ensures 2 * |PairsUpTo(n, i)| == i * (2 * n - i - 1)
    decreases i
  {
    if i > 0 {
      PairsUpToCount(n, i - 1);
      RowPairsShape(i - 1, n);
      CountStep(n, i);
    }
  }

  /** Each unordered pair of distinct satellites is examined exactly once:
      the pairs visited are exactly those with `a < b < n`, no pair repeats,
      and there are n(n-1)/2 of them. */
  lemma PairsExaminedOnce(n: nat)
    ensures forall p :: p in Pairs(n) <==> p.from < p.to < n
    ensures forall k, l :: 0 <= k < l < |Pairs(n)| ==> Pairs(n)[k] != Pairs(n)[l]
    ensures forall k :: 0 <= k < |Pairs(n)| ==> Pairs(n)[k].from != Pairs(n)[k].to
    ensures 2 * |Pairs(n)| == n * (n - 1)
  {
    PairsUpToMembers(n, n);
    PairsUpToSorted(n, n);
    PairsUpToCount(n, n);
    forall k | 0 <= k < |Pairs(n)|
      ensures Pairs(n)[k].from != Pairs(n)[k].to
    {
      assert Pairs(n)[k] in Pairs(n);
    }
  }

  /** Keep the pairs the link rule accepts, in order. */
  function Keep(sats: seq<Satellite>, ps: seq<Link>): seq<Link>
    decreases |ps|
  {
    if |ps| == 0 then []
    else (if Linked(sats, ps[0]) then [ps[0]] else []) + Keep(sats, ps[1..])
  }

  lemma {:induction false} KeepMembers(sats: seq<Satellite>, ps: seq<Link>)
    ensures forall p :: p in Keep(sats, ps) <==> p in ps && Linked(sats, p)
    decreases |ps|
  {
    if |ps| > 0 {
      KeepMembers(sats, ps[1..]);
      assert ps == [ps[0]] + ps[1..];
    }
  }

  /** Keeping distributes over concatenation. */
  lemma {:induction false} KeepAppend(sats: seq<Satellite>, a: seq<Link>, b: seq<Link>)
    ensures Keep(sats, a + b) == Keep(sats, a) + Keep(sats, b)
    decreases |a|
  {
    if |a| == 0 {
      assert a + b == b;
    } else {
      assert (a + b)[0] == a[0];
      assert (a + b)[1..] == a[1..] + b;
      KeepAppend(sats, a[1..], b);
    }
  }

  /** Keeping from a list that ends with p decides p last. */
  lemma KeepSnoc(sats: seq<Satellite>, ps: seq<Link>, p: Link)
    ensures Keep(sats, ps + [p]) == Keep(sats, ps) + (if Linked(sats, p) then [p] else [])
  {
    KeepAppend(sats, ps, [p]);
    assert Keep(sats, [p]) == (if Linked(sats, p) then [p] else []) + Keep(sats, []);
  }

  /** The links drawn for a satellite list. */
  function Links(sats: seq<Satellite>): seq<Link> {
    Keep(sats, Pairs(|sats|))
  }

  /** A link joins satellites a and b exactly when a < b and one of them
      is coordinating; no satellite is linked to itself. */
  lemma LinkRule(sats: seq<Satellite>, a: nat, b: nat)
    ensures Link(a, b) in Links(sats) <==>
      a < b < |sats| && (sats[a].status == Coordinating || sats[b].status == Coordinating)
    ensures Link(a, a) !in Links(sats)
  {
    PairsUpToMembers(|sats|, |sats|);
    KeepMembers(sats, Pairs(|sats|));
  }

  /** The inner loop for satellite i: each later satellite j is examined
      once, and the pair is drawn if the rule accepts it. */
  method DrawRow(sats: seq<Satellite>, i: nat) returns (links: seq<Link>, examined: seq<Link>)
    requires i < |sats|
    ensures examined == RowPairs(i, |sats|) && links == Keep(sats, examined)
  {
    links, examined := [], [];
    var j := i + 1;
    while j < |sats|
      invariant i + 1 <= j <= |sats|
      invariant examined == RowPairs(i, j)
      invariant links == Keep(sats, examined)
    {
      KeepSnoc(sats, examined, Link(i, j));
      examined := examined + [Link(i, j)];
      if sats[i].status == Coordinating || sats[j].status == Coordinating {
        links := links + [Link(i, j)];
      }
      j := j + 1;
    }
  }

  /** The nested loops as written: for each satellite i, for each later
      satellite j, draw a link if the rule accepts the pair. */
  method DrawLinks(sats: seq<Satellite>) returns (links: seq<Link>, examined: seq<Link>)
    ensures examined == Pairs(|sats|)
    ensures links == Links(sats)
  {
    links, examined := [], [];
    var i := 0;
    while i < |sats|
      invariant 0 <= i <= |sats|
      invariant examined == PairsUpTo(|sats|, i)
      invariant links == Keep(sats, examined)
    {
      var rowLinks, row := DrawRow(sats, i);
      KeepAppend(sats, examined, row);
      links, examined := links + rowLinks, examined + row;
      i := i + 1;
    }
  }

  /** The rows of the loops over four satellites. */
  lemma RowsOfFour()
    ensures RowPairs(0, 4) == [Link(0, 1), Link(0, 2), Link(0, 3)]
    ensures RowPairs(1, 4) == [Link(1, 2), Link(1, 3)]
    ensures RowPairs(2, 4) == [Link(2, 3)]
    ensures RowPairs(3, 4) == []
  {
    RowPairsShape(0, 4);
    RowPairsShape(1, 4);
    RowPairsShape(2, 4);
  }

  /** The pairs visited for four satellites. */
  lemma PairsOfFour()
    ensures Pairs(4) == [Link(0, 1), Link(0, 2), Link(0, 3), Link(1, 2), Link(1, 3), Link(2, 3)]
  {
    RowsOfFour();
    assert PairsUpTo(4, 1) == RowPairs(0, 4);
    assert PairsUpTo(4, 2) == PairsUpTo(4, 1) + RowPairs(1, 4);
    assert PairsUpTo(4, 3) == PairsUpTo(4, 2) + RowPairs(2, 4);
    assert PairsUpTo(4, 4) == PairsUpTo(4, 3);
  }

  /** The first row over four satellites: only (0, 1) touches the coordinating one. */
  lemma FirstRowOfFour(s: seq<Satellite>)
    requires |s| == 4
    requires s[1].status == Coordinating
    requires s[0].status != Coordinating && s[2].status != Coordinating && s[3].status != Coordinating
    ensures Keep(s, [Link(0, 1), Link(0, 2), Link(0, 3)]) == [Link(0, 1)]
  {
    var l01, l02, l03 := Link(0, 1), Link(0, 2), Link(0, 3);
    assert Keep(s, [l03]) == [];
    assert Keep(s, [l02, l03]) == [] by {
      assert [l02, l03][1..] == [l03];
    }
    assert [l01, l02, l03][1..] == [l02, l03];
  }

  /** Four satellites of which only the second is coordinating get exactly
      the three links that touch it. */
  lemma LinksOfFour(s: seq<Satellite>)
    requires |s| == 4
    requires s[1].status == Coordinating
    requires s[0].status != Coordinating && s[2].status != Coordinating && s[3].status != Coordinating
    ensures Links(s) == [Link(0, 1), Link(1, 2), Link(1, 3)]
  {
    PairsOfFour();
    FirstRowOfFour(s);
    var l01, l02, l03, l12, l13, l23 := Link(0, 1), Link(0, 2), Link(0, 3), Link(1, 2), Link(1, 3), Link(2, 3);
    var p3, p4, p5 := [l01, l02, l03], [l01, l02, l03, l12], [l01, l02, l03, l12, l13];
    assert Linked(s, l12) && Linked(s, l13) && !Linked(s, l23);
    assert Keep(s, p4) == [l01, l12] by {
      KeepSnoc(s, p3, l12);
      assert p3 + [l12] == p4;
    }
    assert Keep(s, p5) == [l01, l12, l13] by {
      KeepSnoc(s, p4, l13);
      assert p4 + [l13] == p5;
    }
    KeepSnoc(s, p5, l23);
    assert p5 + [l23] == Pairs(4);
  }

  /** In the fixed catalogue NS-002 is the only coordinating satellite, so
      exactly three links are drawn, all from or to it. */
  lemma CatalogueLinks()
    ensures Links(Satellites) == [Link(0, 1), Link(1, 2), Link(1, 3)]
  {
    LinksOfFour(Satellites);
  }

  /** The disc radius for a debris size class, in pixels. */
  function SizeRadius(s: SizeClass): (r: real)
    ensures r == 3.0 <==> s == Micro
    ensures r == 5.0 <==> s == Small
    ensures r == 8.0 <==> s == Large
  {
    match s
    case Micro => 3.0
    case Small => 5.0
    case Large => 8.0
  }

  /** Larger size classes are drawn strictly larger. */
  lemma SizeRadiusIncreasing(a: SizeClass, b: SizeClass)
    ensures a.Rank() < b.Rank() <==> SizeRadius(a) < SizeRadius(b)
  {
  }

  /** Only high-threat debris is drawn with a glow. */
  predicate Glows(d: Debris) {
    d.threat == High
  }

  /** Only tracking satellites are drawn with a scanning ring. */
  predicate HasScanRing(s: Satellite) {
    s.status == Tracking
  }

  predicate Ascending(ks: seq<nat>) {
    forall i, j :: 0 <= i < j < |ks| ==> ks[i] < ks[j]
  }

  /** The positions of `xs` whose element satisfies `p`: each such position
      once, in increasing order, and no other. */
  function Positions<T>(xs: seq<T>, p: T -> bool): (ks: seq<nat>)
    ensures forall k :: k in ks <==> 0 <= k < |xs| && p(xs[k])
    ensures Ascending(ks)
    decreases |xs|
  {
    if |xs| == 0 then []
    else
      var last := |xs| - 1;
      var front := xs[..last];
      var rest := Positions(front, p);
      var tail: seq<nat> := if p(xs[last]) then [last] else [];
      assert forall k :: 0 <= k < last ==> front[k] == xs[k];
      assert forall k :: k in rest <==> 0 <= k < last && p(xs[k]);
      assert forall k :: k in rest + tail <==> k in rest || k in tail;
      assert Ascending(rest + tail) by {
        forall i, j | 0 <= i < j < |rest + tail|
          ensures (rest + tail)[i] < (rest + tail)[j]
        {
          if j >= |rest| {
            assert (rest + tail)[j] == last;
            assert (rest + tail)[i] == rest[i] && rest[i] in rest;
          }
        }
      }
      rest + tail
  }

  /** The first two entries of an ascending list are members, the first
      below the second. */
  lemma FirstTwo(ks: seq<nat>)
    requires Ascending(ks) && |ks| > 1
    ensures ks[0] in ks && ks[1] in ks && ks[0] < ks[1]
  {
  }

  /** An ascending list whose only member is `c` is `[c]`. */
  lemma OnlyMember(ks: seq<nat>, c: nat)
    requires Ascending(ks)
    requires forall k :: k in ks <==> k == c
    ensures ks == [c]
  {
    assert c in ks;
    if |ks| > 1 {
      FirstTwo(ks);
      assert false;
    }
  }

  /** The debris pass of a frame: every disc is drawn with its size class's
      radius, and the glow is added to exactly the high-threat entries. */
  method DrawDebris(ds: seq<Debris>) returns (radii: seq<real>, glowing: seq<nat>)
    ensures |radii| == |ds|
    ensures forall k :: 0 <= k < |ds| ==> radii[k] == SizeRadius(ds[k].size)
    ensures glowing == Positions(ds, Glows)
  {
    radii, glowing := [], [];
    var i := 0;
    while i < |ds|
      invariant i <= |ds|
      invariant |radii| == i
      invariant forall k :: 0 <= k < i ==> radii[k] == SizeRadius(ds[k].size)
      invariant glowing == Positions(ds[..i], Glows)
    {
      assert ds[..i + 1][..i] == ds[..i];
      radii := radii + [SizeRadius(ds[i].size)];
      if ds[i].threat == High {
        glowing := glowing + [i];
      }
      i := i + 1;
    }
    assert ds[..i] == ds;
  }

  /** The satellite pass of a frame: the scanning ring is added to exactly
      the tracking satellites. */
  method DrawSatellites(sats: seq<Satellite>) returns (ringed: seq<nat>)
    ensures ringed == Positions(sats, HasScanRing)
  {
    ringed := [];
    var i := 0;
    while i < |sats|
      invariant i <= |sats|
      invariant ringed == Positions(sats[..i], HasScanRing)
    {
      assert sats[..i + 1][..i] == sats[..i];
      if sats[i].status == Tracking {
        ringed := ringed + [i];
      }
      i := i + 1;
    }
    assert sats[..i] == sats;
  }

  /** In the catalogue the glow falls on D-003 alone and the scanning ring
      on NS-003 alone. */
  lemma CatalogueDecorations()
    ensures Positions(DebrisField, Glows) == [2] && DebrisField[2].id == "D-003"
    ensures Positions(Satellites, HasScanRing) == [2] && Satellites[2].id == "NS-003"
  {
    var g := Positions(DebrisField, Glows);
    assert forall k :: k in g <==> k == 2;
    OnlyMember(g, 2);
    var r := Positions(Satellites, HasScanRing);
    assert forall k :: k in r <==> k == 2;
    OnlyMember(r, 2);
  }
}

=== FILE: orbital_view3d.dfy ===
/** The 3D orbital view, reduced to what it computes rather than what it
    draws: the body catalogue, the per-frame angle advance, the auto-rotate
    camera angle, the mouse-down switch to manual mode, and the wheel zoom
    clamp measured as the camera's distance from the origin. */
module OrbitalView3D {
  import opened Common

  /** A body on a circular orbit: `angle` in radians, `speed` in radians per
      animation frame, and `info` what only one kind of body carries. */
  datatype Body<K> = Body(id: string, angle: real, radius: real, speed: real, info: K)

  datatype DebrisInfo = DebrisInfo(size: real, threat: Level)

  type Satellite = Body<SatStatus>
  type Debris = Body<DebrisInfo>

  /** `Math.PI` to the digits a double carries. */
  const Pi: real := 3.141592653589793

  const InitialSatellites: seq<Satellite> := [
    Body("NS-001", 0.0, 8.0, 0.01, Active),
    Body("NS-002", Pi / 2.0, 8.0, 0.01, Coordinating),
    Body("NS-003", Pi, 10.0, 0.008, Tracking),
    Body("NS-004", 3.0 * Pi / 2.0, 10.0, 0.008, Active)
  ]

  const InitialDebris: seq<Debris> := [
    Body("D-001", 0.5, 9.0, 0.012, DebrisInfo(0.15, Low)),
    Body("D-002", 2.0, 11.0, 0.009, DebrisInfo(0.25, Medium)),
    Body("D-003", 4.0, 12.0, 0.007, DebrisInfo(0.4, High)),
    Body("D-004", 3.0, 8.5, 0.011, DebrisInfo(0.12, Low)),
    Body("D-005", 5.0, 10.5, 0.008, DebrisInfo(0.2, Medium))
  ]

  /** The catalogue: four satellites on the 8 and 10 rings, five debris
      objects between 8.5 and 12, and no id used twice. */
  lemma CatalogueFacts()
    ensures |InitialSatellites| == 4 && |InitialDebris| == 5
    ensures forall i :: 0 <= i < 4 ==> InitialSatellites[i].radius in {8.0, 10.0}
    ensures forall i :: 0 <= i < 5 ==> 8.5 <= InitialDebris[i].radius <= 12.0
    ensures forall i, j :: 0 <= i < j < 4 ==> InitialSatellites[i].id != InitialSatellites[j].id
    ensures forall i, j :: 0 <= i < j < 5 ==> InitialDebris[i].id != InitialDebris[j].id
  {
  }

  /** One pass of a frame's `forEach` over a body list: every angle grows by
      its speed, with no wrap. */
  function Advance<K>(bodies: seq<Body<K>>): (r: seq<Body<K>>)
    ensures |r| == |bodies|
    ensures forall i :: 0 <= i < |r| ==> r[i].angle == bodies[i].angle + bodies[i].speed
    ensures forall i :: 0 <= i < |r| ==> r[i].(angle := bodies[i].angle) == bodies[i]
  {
    seq(|bodies|, k requires 0 <= k < |bodies| => bodies[k].(angle := bodies[k].angle + bodies[k].speed))
  }

  /** What the view keeps between frames. */
  datatype View = View(
    satellites: seq<Satellite>,
    debris: seq<Debris>,
    autoRotate: bool,
    autoRotateAngle: real,
    dragging: bool)

  /** Camera orbit angle added per frame while auto-rotating. */
  const AutoRotateStep: real := 0.002

  /** The view as the scene effect finishes building it, before its own
      synchronous first call of `animate()`; that call is the first frame. */
  const InitialView := View(InitialSatellites, InitialDebris, true, 0.0, false)

  /** One animation frame. */
  function Frame(v: View): (w: View)
    ensures w.autoRotate == v.autoRotate && w.dragging == v.dragging
    ensures v.autoRotate ==> w.autoRotateAngle == v.autoRotateAngle + AutoRotateStep
    ensures !v.autoRotate ==> w.autoRotateAngle == v.autoRotateAngle
  {
    var turn := if v.autoRotate then v.autoRotateAngle + AutoRotateStep else v.autoRotateAngle;
    v.(autoRotateAngle := turn,
       satellites := Advance(v.satellites),
       debris := Advance(v.debris))
  }

  function Frames(v: View, n: nat): View
    decreases n
  {
    if n == 0 then v else Frames(Frame(v), n - 1)
  }

  /** Frames never add or drop bodies or touch the auto-rotate flag, and the
      camera angle moves by n steps only while auto-rotate is on. */
  lemma {:induction false} FramesCamera(v: View, n: nat)
    ensures |Frames(v, n).satellites| == |v.satellites|
    ensures |Frames(v, n).debris| == |v.debris|
    ensures Frames(v, n).autoRotate == v.autoRotate
    ensures Frames(v, n).autoRotateAngle ==
      v.autoRotateAngle + (if v.autoRotate then n as real * AutoRotateStep else 0.0)
    decreases n
  {
    if n > 0 {
      FramesCamera(Frame(v), n - 1);
    }
  }

  /** A body list after n frames. */
  function AdvanceTimes<K>(bodies: seq<Body<K>>, n: nat): seq<Body<K>>
    decreases n
  {
    if n == 0 then bodies else AdvanceTimes(Advance(bodies), n - 1)
  }

  /** Each frame advances both lists once, so after n frames each list has
      been advanced n times. */
  lemma {:induction false} FramesAdvanceLists(v: View, n: nat)
    ensures Frames(v, n).satellites == AdvanceTimes(v.satellites, n)
    ensures Frames(v, n).debris == AdvanceTimes(v.debris, n)
    decreases n
  {
    if n > 0 {
      FramesAdvanceLists(Frame(v), n - 1);
    }
  }

  /** One step then n - 1 more is n steps. */
  lemma StepsAdd<K>(a: Body<K>, b: Body<K>, c: Body<K>, n: nat)
    requires n > 0
    requires b == a.(angle := a.angle + a.speed)
    requires c == b.(angle := b.angle + (n - 1) as real * b.speed)
    ensures c == a.(angle := a.angle + n as real * a.speed)
  {
  }

  /** After n frames a body's angle is its start plus n times its speed, and
      nothing else about it (id, radius, speed, status or size and threat)
      has changed. */
  lemma {:induction false} BodyAfterFrames<K>(bodies: seq<Body<K>>, n: nat, i: nat)
    requires i < |bodies|
    ensures |AdvanceTimes(bodies, n)| == |bodies|
    ensures AdvanceTimes(bodies, n)[i] ==
      bodies[i].(angle := bodies[i].angle + n as real * bodies[i].speed)
    decreases n
  {
    if n > 0 {
      var next := Advance(bodies);
      BodyAfterFrames(next, n - 1, i);
      StepsAdd(bodies[i], next[i], AdvanceTimes(next, n - 1)[i], n);
    }
  }

  /** Angles are never wrapped: NS-001 passes 2 pi after 629 frames. */
  lemma AnglesAreNotWrapped()
    ensures |Frames(InitialView, 629).satellites| == 4
    ensures Frames(InitialView, 629).satellites[0].angle == 6.29
    ensures Frames(InitialView, 629).satellites[0].angle > 2.0 * Pi
  {
    FramesAdvanceLists(InitialView, 629);
    BodyAfterFrames(InitialSatellites, 629, 0);
  }

  /** The mouse events that touch modelled state. */
  datatype Input = MouseDown | MouseUp | AnimationFrame

  /** What a mouse-down while auto-rotating leads to. `autoRotate` is the
      scene effect's only dependency, so turning it off tears the scene down
      and builds it again: the bodies shown are fresh copies of the catalogue,
      the camera angle restarts at 0, and the new handlers start with
      dragging off, so the mouse-down that switched modes drags nothing. The
      rebuilt effect calls `animate()` once before any input can arrive, so
      the bodies are already one frame past their catalogue angles; with
      auto-rotate off that frame leaves the camera angle at 0. */
  const Remounted := Frame(View(InitialSatellites, InitialDebris, false, 0.0, false))

  function Handle(v: View, e: Input): (w: View)
    ensures e == MouseDown ==> !w.autoRotate
    ensures e == MouseDown && v.autoRotate ==>
      w.satellites == Advance(InitialSatellites) && w.debris == Advance(InitialDebris) &&
      w.autoRotateAngle == 0.0 && !w.dragging
    ensures e == MouseDown && !v.autoRotate ==> w == v.(dragging := true)
    ensures e == MouseUp ==> w == v.(dragging := false)
    ensures e == AnimationFrame ==> w == Frame(v)
    ensures e != MouseDown ==> w.autoRotate == v.autoRotate
  {
    match e
    case MouseDown => if v.autoRotate then Remounted else v.(dragging := true)
    case MouseUp => v.(dragging := false)
    case AnimationFrame => Frame(v)
  }

  /** The first press only switches modes: from the mounted view, whatever
      frames have passed, a press leaves nothing dragging and the bodies one
      frame past their catalogue angles; only a second press starts a drag. */
  lemma FirstPressOnlySwitchesModes(n: nat)
    ensures !Handle(Frames(InitialView, n), MouseDown).dragging
    ensures Handle(Frames(InitialView, n), MouseDown).satellites == Advance(InitialSatellites)
    ensures Handle(Frames(InitialView, n), MouseDown).satellites[0].angle == 0.01
    ensures Handle(Handle(Handle(Frames(InitialView, n), MouseDown), MouseUp), MouseDown).dragging
  {
    FramesCamera(InitialView, n);
  }

  function HandleAll(v: View, es: seq<Input>): View
    decreases |es|
  {
    if |es| == 0 then v else HandleAll(Handle(v, es[0]), es[1..])
  }

  /** Nothing turns auto-rotate back on: it is on after a run of inputs
      exactly when it was on before and no mouse-down happened. */
  lemma {:induction false} AutoRotateOnlyTurnsOff(v: View, es: seq<Input>)
    ensures HandleAll(v, es).autoRotate <==> v.autoRotate && MouseDown !in es
    decreases |es|
  {
    if |es| > 0 {
      AutoRotateOnlyTurnsOff(Handle(v, es[0]), es[1..]);
      assert es == [es[0]] + es[1..];
    }
  }

  /** Zoom limits, as distances from the origin. */
  const MinDistance: real := 10.0
  const MaxDistance: real := 40.0
  /** `zoomSpeed * 0.01`: distance moved per unit of wheel delta. */
  const WheelScale: real := 0.1 * 0.01

  function Abs(x: real): (a: real)
    ensures a >= 0.0 && (a == x || a == -x)
  {
    if x < 0.0 then -x else x
  }

  /** Distance after the wheel step, before the limit. The camera always
      looks at the origin, so the step moves it along the line through the
      origin; a step longer than the distance carries it past the origin. */
  function WheelDistance(distance: real, deltaY: real): (d: real)
    requires distance >= 0.0
    ensures d >= 0.0
    ensures d == distance + deltaY * WheelScale || d == -(distance + deltaY * WheelScale)
  {
    Abs(distance + deltaY * WheelScale)
  }

  /** The limit as written: `normalize()` leaves a zero vector at zero, so a
      camera that lands exactly on the origin is scaled to 0, not 10. */
  function ZoomAsWritten(distance: real, deltaY: real): (d: real)
    requires distance >= 0.0
    ensures WheelDistance(distance, deltaY) != 0.0 ==> MinDistance <= d <= MaxDistance
  {
    var raw := WheelDistance(distance, deltaY);
    if raw < MinDistance then (if raw == 0.0 then 0.0 else MinDistance)
    else if raw > MaxDistance then MaxDistance
    else raw
  }

  /** A wheel step that lands on the origin escapes the limit. */
  lemma ZoomAsWrittenReachesOrigin()
    ensures ZoomAsWritten(20.0, -20000.0) == 0.0
    ensures ZoomAsWritten(20.0, -20000.0) < MinDistance
  {
  }

  /** The limit as intended: every wheel event leaves the camera in
      [10, 40], and a step that already lands inside is not altered. */
  function Zoom(distance: real, deltaY: real): (d: real)
    requires distance >= 0.0
    ensures MinDistance <= d <= MaxDistance
    ensures MinDistance <= WheelDistance(distance, deltaY) <= MaxDistance ==> d == WheelDistance(distance, deltaY)
    ensures WheelDistance(distance, deltaY) != 0.0 ==> d == ZoomAsWritten(distance, deltaY)
  {
    Clamp(MinDistance, MaxDistance, WheelDistance(distance, deltaY))
  }

  function ZoomAll(distance: real, deltas: seq<real>): (d: real)
    requires distance >= 0.0
    ensures d >= 0.0
    ensures |deltas| > 0 ==> MinDistance <= d <= MaxDistance
    decreases |deltas|
  {
    if |deltas| == 0 then distance else ZoomAll(Zoom(distance, deltas[0]), deltas[1..])
  }
}

=== FILE: realtime_data.dfy ===
/** The realtime-data hook: every interval it random-walks the system
    metrics inside fixed bands, drifts the debris count by at most one,
    re-rolls the threat level, and with probability 0.3 prepends a random
    alert to a feed capped at ten entries. */
module RealtimeData {
  import opened Common

  datatype SystemStatus = Operational | Warning | Critical

  datatype Metrics = Metrics(
    activeSatellites: int,
    debrisTracked: int,
    threatLevel: Level,
    systemStatus: SystemStatus,
    cpuUsage: real,
    memoryUsage: real,
    networkLatency: real)

  const InitialMetrics := Metrics(4, 247, Low, Operational, 45.0, 62.0, 23.0)

  /** The bands the clamped metrics stay in. */
  predicate InBands(m: Metrics) {
    && 20.0 <= m.cpuUsage <= 95.0
    && 30.0 <= m.memoryUsage <= 90.0
    && 10.0 <= m.networkLatency <= 100.0
  }

  /** The draws one metrics update consumes. The second threat draw is only
      looked at when the first one does not already give "high". */
  datatype MetricDraws = MetricDraws(
    debris: real,
    cpu: real,
    memory: real,
    latency: real,
    threatFirst: real,
    threatSecond: real)

  predicate ValidMetricDraws(d: MetricDraws) {
    && IsDraw(d.debris) && IsDraw(d.cpu) && IsDraw(d.memory)
    && IsDraw(d.latency) && IsDraw(d.threatFirst) && IsDraw(d.threatSecond)
  }

  /** `Math.floor(Math.random() * 3 - 1)`: each third of the unit interval
      gives one of -1, 0, +1. */
  function DebrisDrift(r: real): (k: int)
    requires IsDraw(r)
    ensures -1 <= k <= 1
    ensures k == -1 <==> r < 1.0 / 3.0
    ensures k == 1 <==> r >= 2.0 / 3.0
  {
    (r * 3.0 - 1.0).Floor
  }

  /** The nested conditional that re-rolls the threat level. */
  function ClassifyThreat(first: real, second: real): (l: Level)
    ensures l == High <==> first > 0.95
    ensures l == Medium <==> first <= 0.95 && second > 0.8
    ensures l == Low <==> first <= 0.95 && second <= 0.8
  {
    if first > 0.95 then High else if second > 0.8 then Medium else Low
  }

  function MetricsTick(prev: Metrics, d: MetricDraws): (m: Metrics)
    requires ValidMetricDraws(d)
    ensures InBands(m)
    ensures m.debrisTracked == prev.debrisTracked + DebrisDrift(d.debris)
    ensures m.debrisTracked - prev.debrisTracked in {-1, 0, 1}
    ensures m.threatLevel == ClassifyThreat(d.threatFirst, d.threatSecond)
    ensures m.activeSatellites == prev.activeSatellites
    ensures m.systemStatus == prev.systemStatus
    ensures InBands(prev) ==> -5.0 <= m.cpuUsage - prev.cpuUsage <= 5.0
    ensures InBands(prev) ==> -2.5 <= m.memoryUsage - prev.memoryUsage <= 2.5
    ensures InBands(prev) ==> -7.5 <= m.networkLatency - prev.networkLatency <= 7.5
  {
    prev.(
      debrisTracked := prev.debrisTracked + DebrisDrift(d.debris),
      cpuUsage := Clamp(20.0, 95.0, prev.cpuUsage + Centered(d.cpu, 10.0)),
      memoryUsage := Clamp(30.0, 90.0, prev.memoryUsage + Centered(d.memory, 5.0)),
      networkLatency := Clamp(10.0, 100.0, prev.networkLatency + Centered(d.latency, 15.0)),
      threatLevel := ClassifyThreat(d.threatFirst, d.threatSecond))
  }

  /** The draws that move CPU, memory and latency by `dc`, `dm` and `dl`,
      with no debris drift and a low threat. */
  function MetricStepDraws(dc: real, dm: real, dl: real): MetricDraws {
    MetricDraws(0.5, dc / 10.0 + 0.5, dm / 5.0 + 0.5, dl / 15.0 + 0.5, 0.0, 0.0)
  }

  /** Every step of the three metrics within half their spans is taken by
      some draws, and lands where it points whenever that is inside the band. */
  lemma EveryMetricsStepReachable(prev: Metrics, dc: real, dm: real, dl: real)
    requires -5.0 <= dc < 5.0 && -2.5 <= dm < 2.5 && -7.5 <= dl < 7.5
    ensures ValidMetricDraws(MetricStepDraws(dc, dm, dl))
    ensures 20.0 <= prev.cpuUsage + dc <= 95.0 ==>
      MetricsTick(prev, MetricStepDraws(dc, dm, dl)).cpuUsage == prev.cpuUsage + dc
    ensures 30.0 <= prev.memoryUsage + dm <= 90.0 ==>
      MetricsTick(prev, MetricStepDraws(dc, dm, dl)).memoryUsage == prev.memoryUsage + dm
    ensures 10.0 <= prev.networkLatency + dl <= 100.0 ==>
      MetricsTick(prev, MetricStepDraws(dc, dm, dl)).networkLatency == prev.networkLatency + dl
    ensures MetricsTick(prev, MetricStepDraws(dc, dm, dl)).debrisTracked == prev.debrisTracked
  {
  }

  datatype AlertKind = Detection | Maneuver | System | Collision
  datatype Severity = Info | Warn | Crit

  /** `timestamp` is in milliseconds. */
  datatype Alert = Alert(id: string, kind: AlertKind, severity: Severity, message: string, timestamp: int)

  const AlertKinds: seq<AlertKind> := [Detection, Maneuver, System, Collision]
  const Severities: seq<Severity> := [Info, Warn, Crit]
  const Messages: seq<string> := [
    "Debris trajectory updated",
    "Satellite handoff completed",
    "AI model confidence increased",
    "Collision avoidance protocol initiated",
    "New micro-debris cluster detected",
    "Orbital decay progression nominal"
  ]

  /** Most alerts the auto-generating feed keeps. */
  const FeedCapacity: nat := 10
  /** An alert is generated when the gate draw exceeds this. */
  const AlertThreshold: real := 0.7

  /** The two alerts the feed starts with. */
  function InitialAlerts(now: int): (feed: seq<Alert>)
    ensures |feed| == 2 && |feed| <= FeedCapacity
  {
    [ Alert("1", Detection, Warn, "New debris detected in LEO sector 7", now - 120000),
      Alert("2", Maneuver, Info, "NS-003 completed decay nudge maneuver", now - 300000) ]
  }

  /** The draws one alert decision consumes: the gate, then one pick per pool. */
  datatype AlertDraws = AlertDraws(gate: real, kind: real, severity: real, message: real)

  predicate ValidAlertDraws(d: AlertDraws) {
    IsDraw(d.gate) && IsDraw(d.kind) && IsDraw(d.severity) && IsDraw(d.message)
  }

  /** A freshly generated alert; `id` is the clock reading as a string. */
  function NewAlert(id: string, now: int, d: AlertDraws): (a: Alert)
    requires ValidAlertDraws(d)
    ensures a.kind in AlertKinds && a.severity in Severities && a.message in Messages
    ensures forall k :: 0 <= k < |AlertKinds| ==>
      (a.kind == AlertKinds[k] <==> k as real <= d.kind * 4.0 < k as real + 1.0)
    ensures forall k :: 0 <= k < |Severities| ==>
      (a.severity == Severities[k] <==> k as real <= d.severity * 3.0 < k as real + 1.0)
    ensures forall k :: 0 <= k < |Messages| ==>
      (a.message == Messages[k] <==> k as real <= d.message * 6.0 < k as real + 1.0)
    ensures a.id == id && a.timestamp == now
  {
    Alert(id,
      AlertKinds[PickIndex(d.kind, |AlertKinds|)],
      Severities[PickIndex(d.severity, |Severities|)],
      Messages[PickIndex(d.message, |Messages|)],
      now)
  }

  /** Every combination of pool entries can be generated: the draws k/4, j/3
      and m/6 pick kind k, severity j and message m. */
  lemma EveryAlertReachable(id: string, now: int, k: nat, j: nat, m: nat)
    requires k < |AlertKinds| && j < |Severities| && m < |Messages|
    ensures NewAlert(id, now, AlertDraws(0.0, k as real / 4.0, j as real / 3.0, m as real / 6.0))
      == Alert(id, AlertKinds[k], Severities[j], Messages[m], now)
  {
  }

  /** JavaScript's `s.slice(0, n)`: the first n elements, or all of them
      when there are fewer. */
  function Take<T>(s: seq<T>, n: nat): (r: seq<T>)
    ensures |s| <= n ==> r == s
    ensures n < |s| ==> |r| == n
    ensures r == s[..|r|]
  {
    if |s| <= n then s else s[..n]
  }

  /** `[newAlert, ...prev].slice(0, 10)`. */
  function Push(feed: seq<Alert>, a: Alert): (r: seq<Alert>)
    ensures |feed| < FeedCapacity ==> |r| == |feed| + 1
    ensures |feed| >= FeedCapacity ==> |r| == FeedCapacity
    ensures r[0] == a
    ensures r[1..] == feed[..|r| - 1]
  {
    Take([a] + feed, FeedCapacity)
  }

  function AlertTick(feed: seq<Alert>, id: string, now: int, d: AlertDraws): (r: seq<Alert>)
    requires ValidAlertDraws(d)
    ensures d.gate <= AlertThreshold ==> r == feed
    ensures d.gate > AlertThreshold && |feed| < FeedCapacity ==> |r| == |feed| + 1
    ensures d.gate > AlertThreshold && |feed| >= FeedCapacity ==> |r| == FeedCapacity
    ensures d.gate > AlertThreshold ==> r[0] == NewAlert(id, now, d)
    ensures d.gate > AlertThreshold ==> r[0].id == id && r[0].timestamp == now
    ensures d.gate > AlertThreshold ==> r[1..] == feed[..|r| - 1]
    ensures |feed| <= FeedCapacity ==> |r| <= FeedCapacity
  {
    if d.gate > AlertThreshold then Push(feed, NewAlert(id, now, d)) else feed
  }

  /** Both pieces of state the hook returns. */
  datatype State = State(metrics: Metrics, alerts: seq<Alert>)

  predicate Wf(s: State) {
    InBands(s.metrics) && |s.alerts| <= FeedCapacity
  }

  function Initial(now: int): (s: State)
    ensures Wf(s)
  {
    State(InitialMetrics, InitialAlerts(now))
  }

  /** Everything one interval firing needs from outside: the clock and the draws. */
  datatype Firing = Firing(id: string, now: int, metricDraws: MetricDraws, alertDraws: AlertDraws)

  predicate ValidFiring(f: Firing) {
    ValidMetricDraws(f.metricDraws) && ValidAlertDraws(f.alertDraws)
  }

  function Step(s: State, f: Firing): (s': State)
    requires ValidFiring(f)
    ensures s'.metrics == MetricsTick(s.metrics, f.metricDraws)
    ensures s'.alerts == AlertTick(s.alerts, f.id, f.now, f.alertDraws)
    ensures InBands(s'.metrics)
    ensures |s.alerts| <= FeedCapacity ==> |s'.alerts| <= FeedCapacity
  {
    State(MetricsTick(s.metrics, f.metricDraws), AlertTick(s.alerts, f.id, f.now, f.alertDraws))
  }

  function Run(s: State, firings: seq<Firing>): State
    requires forall k :: 0 <= k < |firings| ==> ValidFiring(firings[k])
    decreases |firings|
  {
    if |firings| == 0 then s else Run(Step(s, firings[0]), firings[1..])
  }

  /** No run of the hook leaves the metric bands or lets the feed exceed
      ten alerts, and the satellite count and system status never change. */
  lemma {:induction false} RunKeepsWf(s: State, firings: seq<Firing>)
    requires Wf(s)
    requires forall k :: 0 <= k < |firings| ==> ValidFiring(firings[k])
    ensures Wf(Run(s, firings))
    ensures Run(s, firings).metrics.activeSatellites == s.metrics.activeSatellites
    ensures Run(s, firings).metrics.systemStatus == s.metrics.systemStatus
    decreases |firings|
  {
    if |firings| > 0 {
      RunKeepsWf(Step(s, firings[0]), firings[1..]);
    }
  }

  /** After n firings the debris count is within n of where it started. */
  lemma {:induction false} DebrisWithinRun(s: State, firings: seq<Firing>)
    requires forall k :: 0 <= k < |firings| ==> ValidFiring(firings[k])
    ensures -|firings| <= Run(s, firings).metrics.debrisTracked - s.metrics.debrisTracked <= |firings|
    decreases |firings|
  {
    if |firings| > 0 {
      DebrisWithinRun(Step(s, firings[0]), firings[1..]);
    }
  }
}

=== FILE: satellite_telemetry.dfy ===
/** The telemetry simulator of the satellite telemetry panel: a synthetic
    21-sample history seeded per selected satellite, and a 3-second tick that
    random-walks six channels, clamps the live readout, and appends the
    unclamped sample to a rolling window. */
module SatelliteTelemetry {
  import opened Common

  /** The six channels of a satellite's vitals. */
  datatype Vitals = Vitals(
    battery: real,
    temperature: real,
    velocity: real,
    altitude: real,
    thrust: real,
    signalStrength: real)

  /** One point of the charted series; `time` is in milliseconds. */
  datatype Sample = Sample(time: int, vitals: Vitals)

  /** The six draws one sample consumes, in the order the source makes them. */
  datatype Draws6 = Draws6(
    battery: real,
    temperature: real,
    velocity: real,
    altitude: real,
    thrust: real,
    signalStrength: real)

  predicate ValidDraws(d: Draws6) {
    && IsDraw(d.battery) && IsDraw(d.temperature) && IsDraw(d.velocity)
    && IsDraw(d.altitude) && IsDraw(d.thrust) && IsDraw(d.signalStrength)
  }

  /** Number of samples in a fresh seed, and the most the window holds. */
  const SeriesCapacity: nat := 21
  /** Spacing of seeded samples and period of the tick, in milliseconds. */
  const Cadence: int := 3000

  /** The live readout the panel starts from. */
  const InitialLive := Vitals(87.0, 22.0, 7.8, 420.0, 0.12, 95.0)

  /** The half-open band each seeded channel falls in. */
  predicate InSeedBand(v: Vitals) {
    && 85.0 <= v.battery < 90.0
    && 20.0 <= v.temperature < 25.0
    && 7.7 <= v.velocity < 7.9
    && 418.0 <= v.altitude < 422.0
    && 0.1 <= v.thrust < 0.15
    && 90.0 <= v.signalStrength < 100.0
  }

  /** The ranges the live readout is clamped to; temperature is free. */
  predicate InRange(v: Vitals) {
    && 0.0 <= v.battery <= 100.0
    && v.velocity >= 0.0
    && v.altitude >= 0.0
    && v.thrust >= 0.0
    && 0.0 <= v.signalStrength <= 100.0
  }

  /** One synthetic history sample's channels. */
  function SeedVitals(d: Draws6): (v: Vitals)
    requires ValidDraws(d)
    ensures InSeedBand(v)
  {
    Vitals(
      85.0 + d.battery * 5.0,
      20.0 + d.temperature * 5.0,
      7.7 + d.velocity * 0.2,
      418.0 + d.altitude * 4.0,
      0.1 + d.thrust * 0.05,
      90.0 + d.signalStrength * 10.0)
  }

  /** The draws that seed a given sample: each channel's offset into its
      band, as a fraction of the band's width. */
  function SeedDrawsFor(v: Vitals): Draws6 {
    Draws6(
      (v.battery - 85.0) / 5.0,
      (v.temperature - 20.0) / 5.0,
      (v.velocity - 7.7) / 0.2,
      (v.altitude - 418.0) / 4.0,
      (v.thrust - 0.1) / 0.05,
      (v.signalStrength - 90.0) / 10.0)
  }

  /** Every sample in the seed bands is seeded by some draws, so the seed
      bands are exactly the samples a history can start with. */
  lemma EverySeedReachable(v: Vitals)
    requires InSeedBand(v)
    ensures ValidDraws(SeedDrawsFor(v))
    ensures SeedVitals(SeedDrawsFor(v)) == v
  {
  }

  predicate ValidSeedDraws(draws: seq<Draws6>) {
    |draws| == SeriesCapacity && forall k :: 0 <= k < |draws| ==> ValidDraws(draws[k])
  }

  /** The reference history: the sample at position k is stamped
      `now - (20 - k) * 3000` and uses the k-th set of draws. */
  function SeedSeries(now: int, draws: seq<Draws6>): (series: seq<Sample>)
    requires ValidSeedDraws(draws)
    ensures |series| == SeriesCapacity
    ensures series[SeriesCapacity - 1].time == now
    ensures forall k :: 0 <= k < SeriesCapacity - 1 ==> series[k + 1].time == series[k].time + Cadence
    ensures forall k :: 0 <= k < SeriesCapacity ==> InSeedBand(series[k].vitals)
  {
    seq(SeriesCapacity, k requires 0 <= k < SeriesCapacity =>
      Sample(now - (SeriesCapacity - 1 - k) * Cadence, SeedVitals(draws[k])))
  }

  /** The seeding loop as written: `i` runs from 20 down to 0 and each pass
      pushes the sample stamped `now - i * 3000`. */
  method SeedLoop(now: int, draws: seq<Draws6>) returns (series: seq<Sample>)
    requires ValidSeedDraws(draws)
    ensures series == SeedSeries(now, draws)
  {
    series := [];
    var i := 20;
    while i >= 0
      invariant -1 <= i <= 20
      invariant |series| == 20 - i
      invariant forall k :: 0 <= k < |series| ==>
        series[k] == Sample(now - (20 - k) * Cadence, SeedVitals(draws[k]))
    {
      series := series + [Sample(now - i * Cadence, SeedVitals(draws[20 - i]))];
      i := i - 1;
    }
  }

  /** The unclamped sample a tick produces. */
  function RawStep(live: Vitals, d: Draws6): (v: Vitals)
    requires ValidDraws(d)
    ensures -0.25 <= v.battery - live.battery < 0.25
    ensures -0.5 <= v.temperature - live.temperature < 0.5
    ensures -0.025 <= v.velocity - live.velocity < 0.025
    ensures -0.25 <= v.altitude - live.altitude < 0.25
    ensures -0.01 <= v.thrust - live.thrust < 0.01
    ensures -1.0 <= v.signalStrength - live.signalStrength < 1.0
  {
    Vitals(
      live.battery + Centered(d.battery, 0.5),
      live.temperature + Centered(d.temperature, 1.0),
      live.velocity + Centered(d.velocity, 0.05),
      live.altitude + Centered(d.altitude, 0.5),
      live.thrust + Centered(d.thrust, 0.02),
      live.signalStrength + Centered(d.signalStrength, 2.0))
  }

  /** `y` is `x` limited to [lo, hi]: below the band it is lo, above it hi,
      and inside it `x` itself. */
  predicate LimitedTo(lo: real, hi: real, x: real, y: real) {
    && (x < lo ==> y == lo)
    && (x > hi ==> y == hi)
    && (lo <= x <= hi ==> y == x)
  }

  /** `y` is `x` with negative values raised to zero. */
  predicate FlooredAtZero(x: real, y: real) {
    (x < 0.0 ==> y == 0.0) && (x >= 0.0 ==> y == x)
  }

  /** A step of each channel within half that channel's span. */
  predicate WithinHalfSpans(delta: Vitals) {
    && -0.25 <= delta.battery < 0.25
    && -0.5 <= delta.temperature < 0.5
    && -0.025 <= delta.velocity < 0.025
    && -0.25 <= delta.altitude < 0.25
    && -0.01 <= delta.thrust < 0.01
    && -1.0 <= delta.signalStrength < 1.0
  }

  /** The draws that make a tick step by `delta`: `delta / span + 0.5` per channel. */
  function StepDrawsFor(delta: Vitals): Draws6 {
    Draws6(
      delta.battery / 0.5 + 0.5,
      delta.temperature / 1.0 + 0.5,
      delta.velocity / 0.05 + 0.5,
      delta.altitude / 0.5 + 0.5,
      delta.thrust / 0.02 + 0.5,
      delta.signalStrength / 2.0 + 0.5)
  }

  /** Every combination of per-channel steps within half their spans is
      taken by some draws: the six channels walk independently. */
  lemma EveryStepReachable(live: Vitals, delta: Vitals)
    requires WithinHalfSpans(delta)
    ensures ValidDraws(StepDrawsFor(delta))
    ensures RawStep(live, StepDrawsFor(delta)) == Vitals(
      live.battery + delta.battery,
      live.temperature + delta.temperature,
      live.velocity + delta.velocity,
      live.altitude + delta.altitude,
      live.thrust + delta.thrust,
      live.signalStrength + delta.signalStrength)
  {
  }

  /** The clamp applied to the live readout (not to the charted sample):
      each channel is limited on its own. */
  function ClampLive(v: Vitals): (c: Vitals)
    ensures InRange(c)
    ensures LimitedTo(0.0, 100.0, v.battery, c.battery)
    ensures c.temperature == v.temperature
    ensures FlooredAtZero(v.velocity, c.velocity)
    ensures FlooredAtZero(v.altitude, c.altitude)
    ensures FlooredAtZero(v.thrust, c.thrust)
    ensures LimitedTo(0.0, 100.0, v.signalStrength, c.signalStrength)
    ensures InRange(v) ==> c == v
  {
    Vitals(
      Clamp(0.0, 100.0, v.battery),
      v.temperature,
      Max(0.0, v.velocity),
      Max(0.0, v.altitude),
      Max(0.0, v.thrust),
      Clamp(0.0, 100.0, v.signalStrength))
  }

  /** Result of one tick: the sample appended to the series and the new readout. */
  datatype TickResult = TickResult(point: Sample, live: Vitals)

  /** One tick: the charted sample is the raw random-walk step from the live
      readout, and the new readout is that sample clamped. */
  function Tick(live: Vitals, now: int, d: Draws6): (t: TickResult)
    requires ValidDraws(d)
    ensures t.point.time == now
    ensures t.point.vitals == RawStep(live, d)
    ensures t.live == ClampLive(t.point.vitals)
    ensures InRange(t.live)
    ensures t.live.temperature == t.point.vitals.temperature
    ensures InRange(t.point.vitals) ==> t.live == t.point.vitals
    ensures -0.25 <= t.point.vitals.battery - live.battery < 0.25
    ensures -1.0 <= t.point.vitals.signalStrength - live.signalStrength < 1.0
  {
    var raw := RawStep(live, d);
    TickResult(Sample(now, raw), ClampLive(raw))
  }

  /** JavaScript's `s.slice(start)` for a possibly negative `start`. */
  function SliceFrom<T>(s: seq<T>, start: int): (r: seq<T>)
    ensures start < 0 && -start <= |s| ==> |r| == -start
    ensures start < 0 && -start > |s| ==> r == s
    ensures 0 <= start <= |s| ==> |r| == |s| - start
    ensures start > |s| ==> r == []
    ensures r == s[|s| - |r|..]
  {
    var from := if start < 0 then (if |s| + start < 0 then 0 else |s| + start)
                else (if start > |s| then |s| else start);
    s[from..]
  }

  /** `[...prev.slice(-20), point]`: keep the last 20 samples and append. */
  function Append(series: seq<Sample>, point: Sample): (r: seq<Sample>)
    ensures |series| < SeriesCapacity - 1 ==> |r| == |series| + 1
    ensures |series| >= SeriesCapacity - 1 ==> |r| == SeriesCapacity
    ensures |r| <= SeriesCapacity
    ensures r[|r| - 1] == point
    ensures r[..|r| - 1] == series[|series| - (|r| - 1)..]
  {
    SliceFrom(series, -(SeriesCapacity - 1)) + [point]
  }

  /** Appending to a full window evicts exactly the oldest sample. */
  lemma AppendToFull(series: seq<Sample>, point: Sample)
    requires |series| == SeriesCapacity
    ensures Append(series, point) == series[1..] + [point]
  {
    var r := Append(series, point);
    assert r[..|r| - 1] == series[1..];
    assert r == r[..|r| - 1] + [point];
  }

  /** The panel's state: the selected satellite, the charted series and the live readout. */
  datatype State = State(selected: string, series: seq<Sample>, live: Vitals)

  /** The panel after mounting: NS-001 selected and its history seeded. */
  function Initial(now: int, draws: seq<Draws6>): (s: State)
    requires ValidSeedDraws(draws)
    ensures s.selected == "NS-001" && |s.series| == SeriesCapacity
  {
    State("NS-001", SeedSeries(now, draws), InitialLive)
  }

  /** Choosing a satellite in the selector. Choosing the one already shown
      does not change React state, so the seeding effect does not re-run. */
  function Select(s: State, id: string, now: int, draws: seq<Draws6>): (s': State)
    requires ValidSeedDraws(draws)
    ensures s'.selected == id && s'.live == s.live
    ensures id != s.selected ==> s'.series == SeedSeries(now, draws)
    ensures id == s.selected ==> s' == s
  {
    if id == s.selected then s else s.(selected := id, series := SeedSeries(now, draws))
  }

  /** One 3-second interval firing. */
  function Step(s: State, now: int, d: Draws6): (s': State)
    requires ValidDraws(d)
    ensures s'.selected == s.selected
    ensures InRange(s'.live)
    ensures |s.series| < SeriesCapacity - 1 ==> |s'.series| == |s.series| + 1
    ensures |s.series| >= SeriesCapacity - 1 ==> |s'.series| == SeriesCapacity
    ensures s'.series == Append(s.series, Tick(s.live, now, d).point)
    ensures s'.live == Tick(s.live, now, d).live
    ensures s'.series[|s'.series| - 1] == Tick(s.live, now, d).point
  {
    var t := Tick(s.live, now, d);
    s.(series := Append(s.series, t.point), live := t.live)
  }

  /** The invariant the panel keeps once mounted. */
  predicate Wf(s: State) {
    |s.series| <= SeriesCapacity && InRange(s.live)
  }

  datatype Event =
    | Interval(now: int, draws: Draws6)
    | Choose(id: string, at: int, seed: seq<Draws6>)

  predicate ValidEvent(e: Event) {
    match e
    case Interval(_, d) => ValidDraws(d)
    case Choose(_, _, seed) => ValidSeedDraws(seed)
  }

  function Apply(s: State, e: Event): State
    requires ValidEvent(e)
  {
    match e
    case Interval(now, d) => Step(s, now, d)
    case Choose(id, at, seed) => Select(s, id, at, seed)
  }

  function Run(s: State, events: seq<Event>): State
    requires forall k :: 0 <= k < |events| ==> ValidEvent(events[k])
    decreases |events|
  {
    if |events| == 0 then s else Run(Apply(s, events[0]), events[1..])
  }

  /** From the mounted panel, no sequence of ticks and selections lets the
      window exceed 21 samples or the live readout leave its ranges. */
  lemma {:induction false} RunKeepsWf(s: State, events: seq<Event>)
    requires Wf(s)
    requires forall k :: 0 <= k < |events| ==> ValidEvent(events[k])
    ensures Wf(Run(s, events))
    decreases |events|
  {
    if |events| > 0 {
      var s1 := Apply(s, events[0]);
      assert Wf(s1);
      RunKeepsWf(s1, events[1..]);
    }
  }

  lemma InitialWf(now: int, draws: seq<Draws6>)
    requires ValidSeedDraws(draws)
    ensures Wf(Initial(now, draws))
  {
  }

  /** The charted sample is not clamped: at full battery a high draw puts
      the series above 100 while the readout stays at 100. */
  lemma SeriesPointMayLeaveRange()
    ensures Tick(InitialLive.(battery := 100.0), 0, Draws6(0.9, 0.5, 0.5, 0.5, 0.5, 0.5)).point.vitals.battery > 100.0
    ensures Tick(InitialLive.(battery := 100.0), 0, Draws6(0.9, 0.5, 0.5, 0.5, 0.5, 0.5)).live.battery == 100.0
  {
  }
}
